=== FILE: README.md ===
# Linjat puzzle engine — a Dafny model

Linjat is a line-drawing logic puzzle. Each numbered cell (a hint) is the anchor of a straight
line of exactly that many cells. The line runs through the anchor horizontally or vertically.
Every dot must be covered, and lines may not overlap.

This project models two parts of the repository:

- **The generator** (`src/main.cc`, class `Game` and `main`). The board is 13 × 12 cells, and
  column 0 of each row is a border sentinel. The generator draws 33 random hints and then
  runs propagation rounds (`reset_possible`, then `reset_fixed`). When a round fixes nothing
  it forces one more dot (`force_one_square`). A game that ends solved is re-solved from the
  bare hints twice: once with dependency analysis (`update_dependent`) and once without. It
  is printed (`print_puzzle`) only when the solver needs the dependency analysis.
- **The browser client's pure helpers** (`www/stc/game.js`). These are the `Line` handle
  arithmetic (`findHandles`, `setLineStyle`'s length, `intersects`, `moveTowardCenter`,
  `covered`, `reset`, the handle part of `findEffectiveHandles`), `Grid.load`, `Grid.check`,
  `Grid.reset` and `GameId`.

The state is an immutable `Game` record (`state.dfy`). Cell arrays are `seq`s indexed by cell,
and every uint64 piece mask is a `set<nat>` of bit positions. Each C++ member function
except `force_one_square` is a pure function from state to state. `force_one_square` is the
method `Status.ForceOneSquare`, because its `rand()` tie-break is an arbitrary choice. The
steps of `main` are methods in `Driver` as well. Three loops stay `while` loops with
invariants: `force_one_square`'s cell loop, `main`'s generation loop (`Driver.Generate`) and
the solving loop (`Loops.Solve`). Every other loop becomes a recursive function "from index
i on" whose contract describes everything from i on. Separate lemmas then characterise each
rule without its counters.

| file | module | models |
|---|---|---|
| geometry.dfy | Geometry | board constants, border test, orientation runs, `do_squares` |
| masks.dfy | Masks | `piece_mask`, `mask_to_piece` |
| state.dfy | GameState | the `Game` members; compatibility tests; monotone progress |
| hints.dfy | Hints | `reset_hints`, `init_valid_orientations` |
| possible.dfy | Possible | `reset_possible`, `update_possible`, `update_dependent`, `find_dependent` |
| fixing.dfy | Fixing | `reset_fixed`, `update_fixed`, `update_not_possible` |
| status.dfy | Status | `impossible`, `solved`, `force_one_square` |
| render.dfy | Render | `print_puzzle` as a string builder |
| driver.dfy | Driver | the constructor and the round loops of `main` |
| decimal.dfy | Decimal | `printf("%d")` and `parseInt` on digit strings |
| lines.dfy | Lines | the client's `Line` arithmetic |
| grid.dfy | Grid | `Grid.load`, `Grid.check`, `Grid.reset` |
| transfer.dfy | Transfer | the printed puzzle read back by `Grid.load` |
| gameid.dfy | GameIds | `GameId` |
| optional.dfy | Optional | `undefined` / map-miss results |
| loops.dfy | Loops | the solving and generation loops of `main`, over any state and any round |

Some details of the code that shape the model:

- The border sentinel of each row is its column 0 (`border_[r * W]`).
- `update_possible` only adds candidates to `possible_`. It never clears an orientation.
- `force_one_square` scores a cell as `orig_possible_count - possible_count`. It picks among
  the unfixed, unforced cells that have a candidate.
- `find_dependent` returns the union of the cells of every valid orientation that fits and
  passes through the target.
- `update_dependent` considers every unfixed cell with at least two candidates, whether
  forced or not. Its target loop runs over targets below `N` (33) only.
- The level text is `print_puzzle`'s output: one quoted row per line, with the border column
  left out. `Grid.load` reads those rows.
- The project's own `Loops` module (`loops.dfy`) holds the solving loop and the run of passes
  of the generation loop of `main` over any state and round function; `Driver` runs them
  with the game's round and pass.

## Model

| member | source | states |
|---|---|---|
| Geometry.DoSquares | src/main.cc:335-349 | true exactly when every one of the n squares start + i*step lies in [0, W*H), is not in the border column and is accepted by the callback |
| Geometry.CellOf | src/main.cc:28-30 | cell r*W + c lies in row r and column c, and is a border sentinel exactly when c is 0 |
| Geometry.AnchorOnRun | src/main.cc:232-236 | for o < 2*size the decoded offset lies in [0, size-1], and the run square at that index is the anchor, so every orientation passes through its anchor |
| Geometry.SquaresIncrease | src/main.cc:232-236 | squares of a run with step 1 or W strictly increase, so a run never repeats a cell |
| Geometry.HorizontalRunStaysInRow | src/main.cc:335-349 | a horizontal run that do_squares accepts keeps every square in its first square's row: wrapping would cross a border sentinel |
| Geometry.VerticalRunStaysInColumn | src/main.cc:232-236 | every square of a vertical run lies in its first square's column |
| Masks.PieceMask | src/main.cc:214-216 | piece_mask(p) is a one-bit mask inside the 64-bit word holding p |
| Masks.MaskToPiece | src/main.cc:218-220 | the result is a set bit of the mask and no set bit is lower |
| Masks.MaskRoundTrip | src/main.cc:214-220 | mask_to_piece(piece_mask(p)) == p |
| GameState.CompatibleMeans | src/main.cc:236-240 | an orientation is compatible exactly when every square is on the board and either unfixed or fixed to this piece |
| Hints.PlaceAnchors | src/main.cc:55-58 | cells no remaining hint names keep their value; each anchor ends as the mask of the last hint placed on it |
| Hints.InitValidOrientations | src/main.cc:313-333 | o is valid exactly when o < 2*size, o fits the uint16 (o < 16), and every square is on the board and is the anchor or unfixed |
| Hints.ResetHints | src/main.cc:51-65 | fixed_ is nonzero exactly at anchors, holding the mask of the last hint anchored there; each piece's orientations are recomputed against the new fixed_; forced_, possible_, orig_possible_ and dep_ are unchanged |
| Hints.AnchoredFixed | src/main.cc:52-58 | after zeroing and placing anchors, a cell is fixed exactly when it is an anchor |
| Hints.ResetHintsValid | src/main.cc:59-61 | after reset_hints bit o of a piece is set exactly when o is in range and the run is on the board touching no anchor but its own |
| Hints.ResetHintsDistinct | src/main.cc:55-58 | with pairwise distinct anchors every anchor is fixed to its own piece |
| Hints.ResetHintsGeometry | src/main.cc:313-333 | every orientation reopened by reset_hints lies on the board and passes through the anchor |
| Possible.MarkSquares | src/main.cc:242-246 | the marking pass adds the piece to exactly the squares of the run and leaves every other cell alone |
| Possible.UpdatePossibleFrom | src/main.cc:226-250 | update_possible adds piece p to cell c exactly when a valid, compatible orientation of p covers c |
| Possible.PiecesFrom | src/main.cc:139-141 | after the piece loop, q is a candidate of c exactly when it was before or a live orientation of q covers c |
| Possible.PossibleBase | src/main.cc:135-141 | from zeroed candidates, q is a candidate of c exactly when q < N and a valid, compatible orientation of q covers c |
| Possible.MarkCells | src/main.cc:397-401 | the dependent bitset gains exactly the squares of the run |
| Possible.FindDependentFrom | src/main.cc:384-404 | the orientation loop adds exactly the cells of live orientations that pass through the target |
| Possible.FindDependent | src/main.cc:377-407 | find_dependent is the union of the squares of every valid, compatible orientation through the target; all of them are on the board |
| Possible.AllCells | src/main.cc:357-358 | dep.set() holds exactly the cells of the board |
| Possible.DepIntersection | src/main.cc:359-363 | a cell survives the piece loop exactly when it is in the dependent set of every candidate piece of the cell |
| Possible.NarrowTargets | src/main.cc:364-373 | the target loop visits targets below N only; the cell ends with the candidates it shares with every partner, each partner with the running intersection up to itself, and nothing else changes or grows |
| Possible.DependentStep | src/main.cc:352-374 | one cell of update_dependent removes candidates only and skips fixed cells and cells with at most one candidate; otherwise, when the intersection of the candidates' dependent sets has at most one cell nothing changes, and else the cell ends with the candidates it shares with every partner below N, each partner with the running intersection up to itself, and every other cell stays put |
| Possible.UpdateDependent | src/main.cc:351-375 | update_dependent never adds a candidate, and never touches a fixed cell at or beyond N |
| Possible.ResetPossible | src/main.cc:135-145 | reset_possible changes only possible_ |
| Possible.ResetPossibleMeans | src/main.cc:135-145 | every candidate reset_possible leaves has a valid orientation covering the cell through squares that are unfixed or its own; without dependency analysis, exactly those candidates |
| Possible.ReachesIgnoresPossible | src/main.cc:226-250 | whether an orientation reaches a cell depends on hints_, valid_orientation_ and fixed_ only |
| Possible.ResetPossibleIdempotent | src/main.cc:135-145 | calling reset_possible twice gives the same state as calling it once |
| Possible.ResetPossibleDependsOnlyOn | src/main.cc:135-145 | two states agreeing on hints_, valid_orientation_, fixed_ and dep_ get the same possible_ |
| Fixing.CountSquares | src/main.cc:269-273 | the counting pass adds exactly one to each square of the run and nothing elsewhere |
| Fixing.CountFrom | src/main.cc:260-276 | no cell's count exceeds valid_count, and a cell's count reaches valid_count exactly when every coverable orientation covers it |
| Fixing.MissesMeans | src/main.cc:301-305 | the no_intersect test holds exactly when the run is on the board and misses update_at |
| Fixing.PruneFrom | src/main.cc:297-310 | a bit survives exactly when it was set and its run is not an in-range, on-board run missing update_at |
| Fixing.UpdateNotPossible | src/main.cc:293-311 | only the piece's own orientation bits are cleared; each surviving in-range, on-board orientation covers update_at, and each cleared one misses it |
| Fixing.FixLoop | src/main.cc:278-290 | the cell loop writes the piece mask into exactly the unfixed cells meeting the count or forced-and-only-candidate condition; it reports true exactly when it wrote, and changes nothing otherwise |
| Fixing.FixLoopPrunes | src/main.cc:278-290 | the orientations the cell loop clears are exactly the in-range, on-board ones missing some written cell |
| Fixing.PrunesAfterSkip | src/main.cc:278-290 | a cell the loop does not write prunes no orientation |
| Fixing.UpdateFixed | src/main.cc:252-291 | update_fixed only writes the piece mask into unfixed cells and only clears its own piece's orientations; it reports true exactly when some cell became fixed, and changes nothing otherwise |
| Fixing.UpdateFixedWrites | src/main.cc:278-287 | an unfixed cell is written exactly when every coverable orientation covers it (every unfixed cell when there is none) or it is forced with this piece as its only candidate |
| Fixing.UpdateFixedPrunes | src/main.cc:284-285 | update_fixed clears exactly the in-range, on-board orientations missing some cell it wrote |
| Fixing.FixedPiecesStep | src/main.cc:280-284 | writing a piece mask into unfixed cells keeps every fixed_ entry zero or a single piece |
| Fixing.ResetFixedFrom | src/main.cc:149-151 | the piece loop only grows fixed_ and shrinks valid_orientation_, touching nothing else |
| Fixing.ResetFixedFromReports | src/main.cc:148-152 | the loop's or-ed report is true exactly when some cell became fixed; when false the state is unchanged |
| Fixing.ResetFixed | src/main.cc:147-153 | reset_fixed only grows fixed_ and shrinks valid_orientation_, and hints_, possible_ and forced_ stay put |
| Fixing.ResetFixedReports | src/main.cc:147-153 | reset_fixed returns true exactly when some cell became fixed; when it returns false nothing changed |
| Fixing.ResetFixedKeepsPieces | src/main.cc:147-153 | if every fixed_ entry is zero or one piece before reset_fixed, so it is after |
| Status.Impossible | src/main.cc:184-191 | impossible() holds exactly when some piece has no orientation left |
| Status.Solved | src/main.cc:193-201 | solved() holds exactly when every piece has exactly one orientation left |
| Status.SolvedNotImpossible | src/main.cc:184-201 | a solved game is not impossible, and each piece's valid set is a single orientation |
| Status.ForceOneSquare | src/main.cc:155-182 | when it succeeds, exactly one unfixed, unforced cell with a candidate becomes forced, and its score is maximal; it fails, changing nothing, only when no such cell scores at least zero |
| Status.ForcedBestForcesNew | src/main.cc:155-182 | a successful force_one_square leaves fixed_ and possible_ alone and forces a cell that was not forced before |
| Render.HintAt | src/main.cc:68-71 | the map has a length for a cell exactly when it is an anchor, and holds the length of the last hint anchored there |
| Render.CellTextChar | src/main.cc:77-85 | with single-digit lengths every non-border cell prints one character |
| Render.RowCellsLength | src/main.cc:76-87 | with one character per cell, the cells from column c >= 1 on print W - c characters |
| Render.RowCellsAt | src/main.cc:76-87 | with one character per cell, index i of the row from column c holds column c + i's character |
| Render.RowCellsFromOne | src/main.cc:76-87 | the non-border cells of a row print in column order, one character each |
| Render.RowStringChars | src/main.cc:74-89 | with single-digit lengths a printed row has W - 1 characters, index i showing board column i + 1 |
| Transfer.LevelChars | src/main.cc:67-90 | with single-digit lengths every printed row has W - 1 characters, and column k of row r shows cell r*W + 1 + k |
| Transfer.LevelRowChars | src/main.cc:74-88 | the same for one row r |
| Transfer.ShownMeans | src/main.cc:77-85 | a cell prints a digit 1 to 9 exactly when it is an anchor with that length, and a dot exactly when it is a forced cell without a hint |
| Transfer.PrintPuzzleQuotesLevel | src/main.cc:73-89 | print_puzzle's output is the level rows, each quoted and followed by a comma and newline |
| Transfer.RowsFromQuoted | src/main.cc:74-89 | the rows printed from row r on are the quoted level rows from r on |
| Transfer.LoadedLines | www/stc/game.js:269-292 | every Line the client loads from a printed puzzle sits on a hint's cell with that hint's length as its target |
| Transfer.LoadedLineOnHint | www/stc/game.js:269-292 | the same for the i-th loaded Line |
| Transfer.HintsGetLines | www/stc/game.js:269-292 | every hint of length 1 to 9 on a non-border cell gets a Line in the client |
| Transfer.HintGetsLine | www/stc/game.js:269-292 | the same for hint j |
| Transfer.LoadedDots | www/stc/game.js:573-579 | the dots the client's check requires to be covered are exactly the generator's forced cells without a hint |
| Transfer.LoadedSize | www/stc/game.js:291 | a printed puzzle loads without throwing, with width W - 1 and height H |
| Driver.Blank | src/main.cc:409-416 | the members' initial values have the class's array sizes and dependency analysis on |
| Driver.NewGame | src/main.cc:27-35 | the constructed game keeps the drawn hints, has dependency analysis on, and orig_possible_ equals possible_ |
| Driver.NewGameFixed | src/main.cc:31-33 | a new game has every anchor fixed to its own piece and no other cell fixed |
| Driver.NewGameSettled | src/main.cc:31-35 | a new game has nothing forced, and another reset_possible would not change possible_ |
| Driver.Round | src/main.cc:424-427 | a round only grows fixed_ and shrinks valid_orientation_; hints_, forced_, orig_possible_ and dep_ stay put |
| Driver.RoundReports | src/main.cc:444-453 | after a round that fixes nothing, another round changes nothing; fixed_ entries stay single pieces |
| Driver.RoundFixes | src/main.cc:146-153 | a round reports an update exactly when fixed_ changes, and then some unfixed cell became fixed |
| Driver.RunRound | src/main.cc:425-427 | reset_possible then reset_fixed give the round's state and report; the report is set exactly when fixed_ changed, and a round that reports nothing leaves a quiet state |
| Driver.ForceStep | src/main.cc:427-431 | after a productive round nothing changes; otherwise only forced_ changes: stuck, with no change, only when no candidate cell scores at least zero, and else exactly one candidate cell of maximal score becomes forced; stuck on a quiet state leaves a stuck state |
| Driver.GenerateRound | src/main.cc:425-431 | the round's state with at most forced_ changed; the round reports an update exactly when fixed_ changed, and then nothing is forced and the loop is not stuck; stuck only after a round that fixed nothing, leaving a quiet state where no candidate scores at least zero; and the pass is one `GenStep`: a round, then no forcing after a productive round and otherwise one candidate cell of maximal score forced or, stuck, none left to force |
| Driver.GenStepChanges | src/main.cc:425-431 | a pass of the generation loop that does not get stuck always changes the game: the round fixed a new cell, or a cell that was not forced became forced |
| Driver.Pass | src/main.cc:424-431 | one more pass extends the run of passes from the loop's start by one `GenStep`, keeping shape, progress, hints_, orig_possible_, dep_ and fixed cells that are pieces, and ends stuck only in a stuck state |
| Driver.Generate | src/main.cc:423-432 | at most 100 rounds, all 100 unless the loop gets stuck; the result is reached from the start by exactly that many passes, each a `GenStep` and only the last one stuck; a stuck loop ends in a quiet state where no candidate scores at least zero; progress is monotone and hints_ stay |
| Driver.GenerateNew | src/main.cc:422-432 | the game built on the drawn hints, after the generation loop, keeps those hints, their anchors and dependency analysis; it is reached from the new game by the reported number of passes, at most 100 and all of them unless stuck, each a `GenStep` |
| Driver.IterateKeeps | src/main.cc:444-454 | any number of rounds keeps the shape, hints_, forced_, orig_possible_ and dep_ |
| Driver.Solve | src/main.cc:444-454 | the reported count is the first of 100 rounds that reports no update, or 0 when none does; the state is the one after the rounds run up to and including that round; hints_ and forced_ stay |
| Driver.NodepStart | src/main.cc:455-456 | the second re-solve starts from the bare hints of what the first left, with dependency analysis off |
| Driver.Resolve | src/main.cc:442-467 | solve_dep is the first quiet round of the loop from the bare hints and solve_nodep that of the loop without dependency analysis from the bare hints of what the first left (0 when none); both are below 100, and the last state keeps hints_ and forced_ |
| Driver.Select | src/main.cc:434-472 | `Selected`: impossible or unsolved games are skipped with both counts 0; otherwise the counts are the first quiet rounds of the loop from the bare hints and of the loop without dependency analysis; both are below 100; a puzzle is printed exactly when solve_dep is nonzero and solve_nodep is zero, and it is the generated game's puzzle |
| Driver.Trial | src/main.cc:421-472 | one iteration of main returns the generated game with its stuck flag and round count, both re-solving counts and the printed puzzle: the game keeps the drawn hints and is reached from the new game by that many `GenStep` passes, and the counts and puzzle are what `Selected` says of it |
| Loops.RunsExtend | src/main.cc:423-432 | a run of k passes none of which got stuck, followed by one more pass, is a run of k + 1 passes |
| Loops.QuietFromMeans | src/main.cc:444-453 | the round the search from i finds reports no update, and every round from i before it reports one |
| Loops.FirstQuietIs | src/main.cc:444-453 | the first quiet round is the one q with every earlier round productive and round q quiet unless q is the bound |
| Loops.Solve | src/main.cc:444-454 | the loop stops right after the first round that reports no update: the count is that round (every earlier one productive, it quiet) or 0 when round 0 is quiet or every round is productive; the state is the one after the rounds run |
| Loops.IterateKeeps | src/main.cc:444-454 | whatever every round keeps, any number of rounds keeps |
| Driver.DependentOnlyNarrows | src/main.cc:142-144 | with dependency analysis on, reset_possible leaves a subset of the candidates it leaves with the analysis off |
| Decimal.NatToString | src/main.cc:79 | the numeral is a nonempty digit string without a leading zero, one digit long exactly for values below 10 |
| Decimal.NatToStringValue | src/main.cc:79 | the numeral's digits denote the number |
| Decimal.ParseInt | www/stc/game.js:605 | parseInt gives NaN exactly when the text does not start with a digit |
| Decimal.ParseIntRoundTrip | www/stc/game.js:605 | parseInt reads back the numeral of n followed by any text that does not start with a digit |
| Lines.LineLength | www/stc/game.js:58-73 | the drawn length is one more than the Chebyshev distance between the handles |
| Lines.LineLengthSymmetric | www/stc/game.js:53-73 | the length is at least 1 and does not depend on the order of the handles |
| Lines.NewLine | www/stc/game.js:6-22 | a new line is anchored at the given (r, c), has both handles on its anchor, length 1, and the hint as target |
| Lines.FindHandles | www/stc/game.js:42-51 | a result exists exactly when (r, c) is a handle; it lists that handle first and the two handles as a pair, preferring h1 |
| Lines.BoxesIntersect | www/stc/game.js:79-96 | the interval test holds exactly when some cell lies in both closed boxes |
| Lines.IntersectsSymmetric | www/stc/game.js:79-96 | the overlap test is symmetric in the two boxes |
| Lines.MoveTowardCenter | www/stc/game.js:153-162 | each coordinate that differs from the anchor's moves exactly one step toward it, never past it, and each that equals it stays; the handle stays put exactly when it is the anchor, and otherwise gets one step closer |
| Lines.MoveKeepsStraight | www/stc/game.js:153-162 | moving a handle keeps a line in its anchor's row or column |
| Lines.Covered | www/stc/game.js:194-209 | covered(handle) lists max(1, distance) cells, starting at the handle, each one step closer, all in the handle–anchor box; it includes the anchor only when the handle is the anchor |
| Lines.CoveredInRow | www/stc/game.js:199-208 | for a handle in the anchor's row, covered lists exactly the cells between them, the anchor excluded |
| Lines.CoveredInColumn | www/stc/game.js:199-208 | the column counterpart of CoveredInRow |
| Lines.SetLineStyle | www/stc/game.js:53-77 | setLineStyle changes only the length, to one more than the distance between the handles |
| Lines.SetLineStyleOrderFree | www/stc/game.js:73-76 | the length and the match and too-long classes do not depend on the order of the handles |
| Lines.SetLineStyleDiverges | www/stc/game.js:53-56 | for crossed handles the swap recursion never ends, whatever the stack depth |
| Lines.SetLineStyleDivergesExample | www/stc/game.js:53-56 | handles (1, 0) and (0, 1) make setLineStyle recurse forever |
| Lines.SetLineStyleAgrees | www/stc/game.js:53-73 | for handles that are not crossed, the source's recursion ends within two calls, with LineLength |
| Lines.StraightNotCrossed | www/stc/game.js:53-56 | handles in the anchor's row or column are never crossed |
| Lines.Reset | www/stc/game.js:188-192 | reset puts both handles on the anchor, sets the length to 1, and covers just the anchor |
| Lines.FindEffectiveHandles | www/stc/game.js:98-130 | a drag from the untouched anchor collapses the line onto it; from a non-handle the result is non-null exactly for a row or column drag from the anchor, and is then [(r, c), anchor]; from a handle it is non-null exactly when (r, c) is in the anchor's row or column, and is then [(r, c), anchor] off the other handle's row and column, [anchor, other] past the anchor on the other handle's side, and [(r, c), other] otherwise; a straight line stays straight |
| Grid.RowLines | www/stc/game.js:275-284 | the lines made for a row sit exactly on its hint characters, in column order, each with that hint's length |
| Grid.LoadLines | www/stc/game.js:272-285 | the lines made for the rows sit exactly on the hint characters |
| Grid.Load | www/stc/game.js:269-292 | load keeps every character as a cell and makes a Line for exactly the characters 1 to 9 |
| Grid.LoadSize | www/stc/game.js:291 | load's { width, height } is the first row's cell count and the row count of the board it built; on an empty level load throws instead |
| Grid.CoveredCells | www/stc/game.js:563-567 | the covered map holds exactly the cells some line's covered() lists |
| Grid.LineBlinks | www/stc/game.js:568-570 | no line blinks exactly when every line's length equals its target |
| Grid.RowBlinks | www/stc/game.js:573-579 | no cell of a row blinks exactly when each of its dots is covered |
| Grid.CellBlinks | www/stc/game.js:573-579 | no cell blinks exactly when every dot is covered |
| Grid.Check | www/stc/game.js:558-588 | check() is true exactly when every line has its target length and every dot is covered by some line |
| Grid.ResetLines | www/stc/game.js:549-551 | after reset every line sits on its anchor with length 1 and the same target |
| Grid.CheckAfterReset | www/stc/game.js:542-588 | after a reset the board checks exactly when every hint is 1 and every dot is a hint's own cell |
| GameIds.Parse | www/stc/game.js:601-606 | the level of a parsed id contains no dot |
| GameIds.ParseStr | www/stc/game.js:601-614 | parsing str() of a GameId whose level has no dot gives the same GameId |
| GameIds.NextIncrements | www/stc/game.js:608-614 | next() keeps the level and adds one to the index (NaN stays NaN), and str() of it is "L." followed by the new index |
| GameIds.ParseThenNext | www/stc/game.js:600-615 | for the id "L.n" with a dot-free level L, the constructor gives level L and index n, next() gives level L and index n + 1 and prints as "L." + (n + 1) |

## Left out

- `randomize`'s calls to `random()` become a parameter: `Driver.Trial` takes the hints, and
  `Driver.RandomHints` states what randomize guarantees. These are 33 distinct non-border
  anchors with lengths 2 to 5. The writes randomize makes to `fixed_` are overwritten by
  `reset_hints` and are not modelled.
- `force_one_square`'s `rand()` tie-break is an arbitrary choice. The read of the
  uninitialised `best_score_count` on a tie at score -1 is covered by the same choice.
- `main`'s `argv`/`srandom`, its million-iteration outer loop (one iteration is `Driver.Trial`)
  and the `DEP=... NODEP=...` line are left out, because they are I/O and repetition.
  `print_possible` is left out because it is debug output.
- `dependent_` is only reset by `reset_hints` and never read, so it is not modelled.
- All DOM, jQuery, CSS, event and `localStorage` code in `www/stc/game.js` is left out, and so
  are `resize`, the floating-point scale math and the `$.ajax` level loading. The line's
  `transposed` flag only affects styling and is dropped. The `console.log(id)` in `GameId`'s
  constructor (www/stc/game.js:602) is logging and is dropped.
- `Grid.Load`: its result is the board and the lines, not the size `load` returns; that
  size is `Grid.LoadSize`, used only for sizing the board. On an empty level `load` throws a
  TypeError at www/stc/game.js:291 after storing the empty grid. `Grid.Load` returns
  normally there, and `Grid.LoadSize` gives None. Levels from the generator always have H
  rows (`Transfer.LoadedSize`).
- The `findEffectiveHandles` loops at www/stc/game.js:133-148 are left out. They shrink
  handles away from other lines and need not terminate when another line's box contains the
  anchor.
- `Lines.FindEffectiveHandles`: its result is the handle pair before those loops, which
  are not modelled; every branch before them is.
- `www/game.js` is left out. It is an early prototype whose only logic is the dead
  `Grid.updateLine`.
- `Decimal.ParseInt`: only the digit-string reading of `parseInt` is modelled. Leading
  blanks, a sign or a `0x` prefix are not: "easy.0x10" reads index 16 in the browser and 0
  here. Ids built by `next()` never carry them, but an id taken from a `#game.` URL hash
  (www/stc/game.js:919-921) can.
- `Possible.ResetPossible`: its contract says only that `possible_` changes. What
  `possible_` holds is stated by `Possible.ResetPossibleMeans`: exactly the reachable
  candidates without dependency analysis, and a subset of them with it.
- `Possible.UpdateDependent`: its contract states that candidates only shrink. The exact
  narrowing is stated per cell by `Possible.NarrowTargets` and `Possible.DepIntersection`.
  How successive cells interact is not characterised.
- `Status.ForceOneSquare`: which cell among equal best scores is not determined, because
  the source leaves it to `rand()`. The method also returns the chosen cell, which the
  source keeps local.
- `GameIds.ParseStr`: the index is an unbounded natural. JavaScript numbers are doubles, so
  from 10^21 on `String(index)` is in exponent form ("1e+21"), and `parseInt` reads back
  only its leading digit. That range is not modelled.
- `GameIds.NextIncrements`: `index + 1` is exact here. On a double it is inexact from 2^53
  on, where it can give the index back unchanged. That range is not modelled.
- `GameIds.ParseThenNext`: the same two limits apply. Indices of 2^53 and more are not
  modelled.
- Integer widths: masks are sets, so uint64 overflow cannot arise with 33 pieces. The
  uint16 `valid_orientation_` truncation is modelled (orientations 16 and up are dropped).
  The uint8 counters of `update_fixed` count at most 10 orientations and cannot wrap.

## Findings

| source | as written | input that shows it | evidently intended | confidence | as-written member | corrected member |
|---|---|---|---|---|---|---|
| www/stc/game.js:53-56 | `setLineStyle` swaps the handles while h1's row or column exceeds h2's; for crossed handles each swap leaves a pair that needs another swap | handles (1, 0) and (0, 1): the call recurses without end | the length max(1 + abs(dr), 1 + abs(dc)), which does not depend on handle order | not executed; the drag handlers only produce straight lines, which are never crossed (`Lines.StraightNotCrossed`), so the input is unreachable from the UI | Lines.SetLineStyleDiverges | Lines.SetLineStyle |

=== FILE: decimal.dfy ===
/** Decimal text of integers, as printf("%d") writes it (src/main.cc:79) and as JavaScript's
    parseInt reads it back (www/stc/game.js:605). */
module Decimal {

  predicate IsDigit(ch: char) {
    '0' <= ch <= '9'
  }

  function DigitChar(d: nat): (ch: char)
    requires d < 10
    ensures IsDigit(ch) && ch as int - '0' as int == d
  {
    ('0' as int + d) as char
  }

  function DigitValue(ch: char): (d: nat)
    requires IsDigit(ch)
    ensures d < 10 && DigitChar(d) == ch
  {
    ch as int - '0' as int
  }

  predicate AllDigits(s: string) {
    forall i :: 0 <= i < |s| ==> IsDigit(s[i])
  }

  /** The shortest decimal numeral of n: no leading zero unless n is 0. */
  function NatToString(n: nat): (s: string)
    decreases n
    ensures 1 <= |s| && AllDigits(s)
    ensures |s| > 1 ==> s[0] != '0'
    ensures |s| == 1 <==> n < 10
  {
    if n < 10 then [DigitChar(n)]
    else NatToString(n / 10) + [DigitChar(n % 10)]
  }

  /** printf("%d"): a minus sign in front of a negative value. */
  function IntToString(n: int): string {
    if n < 0 then "-" + NatToString(-n) else NatToString(n)
  }

  /** The value of a numeral, most significant digit first. */
  function DigitsValue(s: string): nat
    requires AllDigits(s)
  {
    if |s| == 0 then 0 else DigitsValue(s[..|s| - 1]) * 10 + DigitValue(s[|s| - 1])
  }

  /** Reading the numeral of n gives n back. */
  lemma {:induction false} NatToStringValue(n: nat)
    ensures DigitsValue(NatToString(n)) == n
    decreases n
  {
    if n >= 10 {
      NatToStringValue(n / 10);
      var s := NatToString(n);
      assert s[..|s| - 1] == NatToString(n / 10);
    }
  }

  /** Length of the run of digits s starts with. */
  function LeadingDigits(s: string): (k: nat)
    ensures k <= |s| && AllDigits(s[..k])
    ensures k < |s| ==> !IsDigit(s[k])
  {
    if |s| == 0 || !IsDigit(s[0]) then 0
    else
      var k := 1 + LeadingDigits(s[1..]);
      assert s[..k] == [s[0]] + s[1..][..k - 1];
      k
  }

  /** A result of parseInt: a number, or NaN when the text does not start with a digit. */
  datatype Parsed = Num(value: nat) | NaN

  /** parseInt(s, 10) on text without a sign, leading blanks or radix prefix: the value of
      the leading digits. */
  function ParseInt(s: string): (r: Parsed)
    ensures r.NaN? <==> (|s| == 0 || !IsDigit(s[0]))
  {
    var k := LeadingDigits(s);
    if k == 0 then NaN else Num(DigitsValue(s[..k]))
  }

  lemma {:induction false} LeadingDigitsAppend(a: string, rest: string)
    requires AllDigits(a)
    requires rest == [] || !IsDigit(rest[0])
    ensures LeadingDigits(a + rest) == |a|
    decreases |a|
  {
    if |a| > 0 {
      LeadingDigitsAppend(a[1..], rest);
      assert (a + rest)[1..] == a[1..] + rest;
    } else {
      assert a + rest == rest;
    }
  }

  /** parseInt reads back what %d wrote, up to the first non-digit. */
  lemma ParseIntRoundTrip(n: nat, rest: string)
    requires rest == [] || !IsDigit(rest[0])
    ensures ParseInt(NatToString(n) + rest) == Num(n)
  {
    var s := NatToString(n);
    LeadingDigitsAppend(s, rest);
    assert (s + rest)[..|s|] == s;
    NatToStringValue(n);
  }
}

=== FILE: driver.dfy ===
/** The Game constructor and the round loops of main (src/main.cc:24-35, 419-489): build a
    game from random hints, propagate and force cells until it is solved or stuck, then
    re-solve from the bare hints with and without dependency analysis and keep the puzzles
    only the dependency-aware solver makes progress on. */
module Driver {
  import opened Geometry
  import opened Masks
  import opened GameState
  import opened Hints
  import opened Possible
  import opened Fixing
  import opened Status
  import opened Render
  import opened Optional
  import Loops

  /** The bound on the rounds of every loop in main. */
  const Rounds: nat := 100

  /** What randomize can produce: N hints on distinct non-border cells, each of length 2 to
      5. The random draws themselves are left to the caller. */
  predicate RandomHints(hints: seq<Hint>) {
    && |hints| == N
    && (forall i :: 0 <= i < N ==> OnBoard(hints[i].at) && 2 <= hints[i].size <= 5)
    && (forall i, j :: 0 <= i < j < N ==> hints[i].at != hints[j].at)
  }

  /** The members' initial values: no orientation, nothing possible, fixed or forced,
      dependency analysis on. */
  function Blank(hints: seq<Hint>): (g: Game)
    requires |hints| == N
    ensures Shaped(g) && g.hints == hints && g.dep
  {
    Game(hints, seq(N, p => {}), seq(Area, c => {}), seq(Area, c => {}), seq(Area, c => {}), seq(Area, c => false), true)
  }

  /** The constructor after randomize: reset_hints, reset_possible, then orig_possible_ is
      a copy of possible_. The writes randomize makes to fixed_ are discarded by
      reset_hints, so they are not modelled. */
  function NewGame(hints: seq<Hint>): (g: Game)
    requires RandomHints(hints)
    ensures Shaped(g) && g.hints == hints && g.dep
    ensures g.origPossible == g.possible
  {
    var g2 := ResetPossible(ResetHints(Blank(hints)));
    g2.(origPossible := g2.possible)
  }

  /** A new game has every anchor fixed to its own piece and no other cell fixed. */
  lemma NewGameFixed(hints: seq<Hint>)
    requires RandomHints(hints)
    ensures forall i :: 0 <= i < N ==> NewGame(hints).fixed[hints[i].at] == PieceMask(i)
    ensures forall c :: 0 <= c < Area ==> (NewGame(hints).fixed[c] == {} <==> !IsAnchor(hints, c))
  {
    var g1 := ResetHints(Blank(hints));
    ResetHintsDistinct(Blank(hints));
    assert NewGame(hints).fixed == g1.fixed;
  }

  /** A new game has nothing forced, and its possible_ is already what reset_possible
      computes. */
  lemma NewGameSettled(hints: seq<Hint>)
    requires RandomHints(hints)
    ensures forall c :: 0 <= c < Area ==> !NewGame(hints).forced[c]
    ensures ResetPossible(NewGame(hints)).possible == NewGame(hints).possible
  {
    var g1 := ResetHints(Blank(hints));
    var g2 := ResetPossible(g1);
    ResetPossibleIdempotent(g1);
    ResetPossibleDependsOnlyOn(g2, NewGame(hints));
  }

  /** One round of every loop in main: reset_possible, then reset_fixed, whose report is
      returned. Only possible_, fixed_ and valid_orientation_ change. */
  function Round(g: Game): (r: (Game, bool))
    requires Shaped(g)
    ensures Shaped(r.0) && Progress(g, r.0)
    ensures r.0.hints == g.hints && r.0.forced == g.forced
    ensures r.0.origPossible == g.origPossible && r.0.dep == g.dep
  {
    var p := ResetPossible(g);
    var fx := ResetFixed(p);
    ProgressTransitive(g, p, fx.0);
    fx
  }

  /** A state no round can change: the round reports nothing and returns it unchanged. */
  predicate Quiet(g: Game)
    requires Shaped(g)
  {
    Round(g) == (g, false)
  }

  /** A round that fixes nothing leaves a quiet state; every round keeps each fixed_ entry
      the mask of a single piece. */
  lemma RoundReports(g: Game)
    requires Shaped(g)
    ensures !Round(g).1 ==> Quiet(Round(g).0)
    ensures FixedArePieces(g) ==> FixedArePieces(Round(g).0)
  {
    var p := ResetPossible(g);
    ResetFixedReports(p);
    ResetFixedKeepsPieces(p);
    ResetPossibleIdempotent(g);
  }

  /** A round reports an update exactly when it changes fixed_, which it can only do by
      fixing a cell that was not fixed. */
  lemma RoundFixes(g: Game)
    requires Shaped(g)
    ensures Round(g).1 <==> Round(g).0.fixed != g.fixed
    ensures Round(g).1 ==> exists c :: 0 <= c < Area && NewlyFixed(g, Round(g).0, c)
  {
    var p := ResetPossible(g);
    ResetFixedReports(p);
    var r := ResetFixed(p);
    if r.1 {
      var c :| 0 <= c < Area && NewlyFixed(p, r.0, c);
      assert r.0.fixed[c] != g.fixed[c];
      assert NewlyFixed(g, r.0, c);
    }
  }

  /** Where the generation loop stops early: a quiet state in which no candidate cell
      scores at least zero, so force_one_square finds nothing. */
  predicate Stuck(g: Game)
    requires Shaped(g)
  {
    Quiet(g) && NoneToForce(g)
  }

  /** No candidate cell scores at least zero, so force_one_square finds nothing. */
  predicate NoneToForce(g: Game)
    requires Shaped(g)
  {
    forall c :: 0 <= c < Area && Candidate(g, c) ==> Score(g, c) < 0
  }

  /** What the generation loop does to the state g a round left, given the round's report
      changed: nothing when the round fixed something; otherwise either stuck, with g left as
      it is and no candidate cell scoring at least zero, or one maximal-score candidate cell
      forced. */
  predicate Forced(g: Game, changed: bool, r: Game, stuck: bool)
    requires Shaped(g)
  {
    if changed then r == g && !stuck
    else if stuck then r == g && NoneToForce(g)
    else ForcedBest(g, r)
  }

  /** What the generation loop does after a round: nothing when the round fixed something,
      force_one_square otherwise. Only forced_ changes; stuck, with the game unchanged, when
      force_one_square finds no cell, which can only happen when no candidate cell scores at
      least zero; otherwise one candidate cell of maximal score is forced. */
  method ForceStep(g: Game, changed: bool) returns (r: Game, stuck: bool)
    requires Shaped(g)
    ensures Shaped(r) && Progress(g, r) && r == g.(forced := r.forced)
    ensures Forced(g, changed, r, stuck)
    ensures changed ==> r == g && !stuck
    ensures stuck <==> !changed && r == g
    ensures !changed && (exists c :: 0 <= c < Area && Candidate(g, c) && Score(g, c) >= 0) ==> !stuck
    ensures stuck && Quiet(g) ==> Stuck(r)
  {
    if changed {
      return g, false;
    }
    var ok, bestAt;
    r, ok, bestAt := ForceOneSquare(g);
    stuck := !ok;
    if ok {
      assert r.forced[bestAt] != g.forced[bestAt];
    }
  }

  /** One round of the generation loop, run on a game r: a round, then, when it fixes
      nothing, force_one_square. The round reports an update exactly when it changed fixed_,
      and then nothing is forced; the loop is stuck only after a round that fixed nothing and
      a force_one_square that found nothing, which leaves a stuck game. */
  method GenerateRound(r: Game) returns (next: Game, changed: bool, stuck: bool)
    requires Shaped(r)
    ensures Shaped(next) && Progress(r, next)
    ensures next.hints == r.hints && next.origPossible == r.origPossible && next.dep == r.dep
    ensures FixedArePieces(r) ==> FixedArePieces(next)
    ensures next == Round(r).0.(forced := next.forced)
    ensures changed <==> next.fixed != r.fixed
    ensures changed ==> next.forced == r.forced && !stuck
    ensures stuck ==> !changed && next.forced == r.forced && Stuck(next)
    ensures GenStep(r, next, stuck)
  {
    var after;
    after, changed := RunRound(r);
    next, stuck := ForceStep(after, changed);
    ProgressTransitive(r, after, next);
  }

  /** reset_possible then reset_fixed, as main runs them: the round's state and its report,
      which is set exactly when fixed_ changed. A round that reports nothing leaves a quiet
      state. */
  method RunRound(r: Game) returns (after: Game, changed: bool)
    requires Shaped(r)
    ensures (after, changed) == Round(r)
    ensures Shaped(after) && Progress(r, after)
    ensures after.hints == r.hints && after.forced == r.forced && after.origPossible == r.origPossible && after.dep == r.dep
    ensures FixedArePieces(r) ==> FixedArePieces(after)
    ensures changed <==> after.fixed != r.fixed
    ensures !changed ==> Quiet(after)
  {
    after, changed := Round(r).0, Round(r).1;
    RoundReports(r);
    RoundFixes(r);
  }

  /** One pass of the generation loop's body, as a relation between the game r before it
      and the game next after it: a round of r, then what Forced says of the round's state
      and report. */
  ghost predicate GenStep(r: Game, next: Game, stuck: bool) {
    Shaped(r) && Forced(Round(r).0, Round(r).1, next, stuck)
  }

  /** A pass that does not get stuck changes the game: the round fixed a new cell, or a
      cell the round left unforced became forced. So a run never passes through the same
      game twice without progress, and none of its passes is idle. */
  lemma GenStepChanges(r: Game, next: Game)
    requires Shaped(r) && Shaped(next) && GenStep(r, next, false)
    ensures next != r
    ensures next.fixed != r.fixed || exists c :: 0 <= c < Area && !r.forced[c] && next.forced[c]
  {
    var (after, changed) := Round(r);
    RoundFixes(r);
    if !changed {
      ForcedBestForcesNew(after, next);
    }
  }

  /** What the generation loop keeps of its start g in the game r it has reached after k
      passes: the shape, progress and fixed fields, a stuck game when it got stuck, and
      the run of passes that led there. */
  ghost predicate Reached(g: Game, r: Game, k: nat, stuck: bool)
    requires Shaped(g)
  {
    && Shaped(r) && Progress(g, r)
    && r.hints == g.hints && r.origPossible == g.origPossible && r.dep == g.dep
    && (FixedArePieces(g) ==> FixedArePieces(r))
    && (stuck ==> 1 <= k && Stuck(r))
    && Loops.Runs(GenStep, g, r, k, stuck)
  }

  /** One pass of the generation loop, seen from its start g: a game the loop reached
      without getting stuck leads to one it reaches in one more pass. */
  method Pass(ghost g: Game, ghost k: nat, r: Game) returns (next: Game, stuck: bool)
    requires Shaped(g) && Reached(g, r, k, false)
    ensures Reached(g, next, k + 1, stuck)
  {
    var changed;
    next, changed, stuck := GenerateRound(r);
    ProgressTransitive(g, r, next);
    Loops.RunsExtend(GenStep, g, r, next, k, stuck);
  }

  /** The generation loop of main: up to Rounds rounds, forcing a cell whenever a round
      fixes nothing, and stopping early when no cell can be forced. rounds counts the
      rounds run; all of them run unless the loop gets stuck, and a loop that gets stuck
      leaves a stuck game. */
  method Generate(g: Game) returns (r: Game, stuck: bool, rounds: nat)
    requires Shaped(g)
    ensures Shaped(r) && Progress(g, r)
    ensures r.hints == g.hints && r.origPossible == g.origPossible && r.dep == g.dep
    ensures FixedArePieces(g) ==> FixedArePieces(r)
    ensures rounds <= Rounds && (!stuck ==> rounds == Rounds)
    ensures stuck ==> 1 <= rounds && Stuck(r)
    ensures Loops.Runs(GenStep, g, r, rounds, stuck)
  {
    r := g;
    stuck := false;
    rounds := 0;
    while rounds < Rounds && !stuck
      invariant rounds <= Rounds && Reached(g, r, rounds, stuck)
      decreases Rounds - rounds
    {
      r, stuck := Pass(g, rounds, r);
      rounds := rounds + 1;
    }
  }

  /** A round as a function on every game; a game of the wrong shape, which main never
      has, is left as it is. */
  function RoundOf(g: Game): (Game, bool) {
    if Shaped(g) then Round(g) else (g, false)
  }

  /** What every round keeps of the game it starts from: the shape, hints_, forced_,
      orig_possible_ and dep_. */
  predicate Keeps(g: Game, y: Game) {
    Shaped(y) && y.hints == g.hints && y.forced == g.forced && y.origPossible == g.origPossible && y.dep == g.dep
  }

  /** Any number of rounds keeps what a single round keeps. */
  lemma {:induction false} IterateKeeps(g: Game, k: nat)
    requires Shaped(g)
    ensures Keeps(g, Loops.Iterate(RoundOf, g, k))
  {
    forall y | Keeps(g, y)
      ensures Keeps(g, RoundOf(y).0)
    {
    }
    Loops.IterateKeeps(RoundOf, y => Keeps(g, y), g, k);
  }

  /** One solving loop of main on g: up to Rounds rounds, stopping right after the first
      in which reset_fixed reports no update. rounds is that round's number, or 0 when every
      round reports an update; the game left keeps g's hints, forced cells and options. */
  method Solve(g: Game) returns (r: Game, rounds: nat)
    requires Shaped(g)
    ensures rounds == Loops.QuietCount(RoundOf, g, Rounds) && rounds < Rounds
    ensures r == Loops.Iterate(RoundOf, g, Loops.RoundsRun(RoundOf, g, Rounds))
    ensures Keeps(g, r)
  {
    r, rounds := Loops.Solve(RoundOf, g, Rounds);
    IterateKeeps(g, Loops.RoundsRun(RoundOf, g, Rounds));
  }

  /** The game the dependency-aware solving loop leaves when started from the bare hints. */
  function DepSolved(generated: Game): (g: Game)
    requires Shaped(generated) && AnchorsInRange(generated.hints)
    ensures Keeps(ResetHints(generated), g)
  {
    var start := ResetHints(generated);
    IterateKeeps(start, Loops.RoundsRun(RoundOf, start, Rounds));
    Loops.Iterate(RoundOf, start, Loops.RoundsRun(RoundOf, start, Rounds))
  }

  /** The game main re-solves without dependency analysis: the bare hints of the game the
      dependency-aware solving loop left, with dep_ off. */
  function NodepStart(generated: Game): (g: Game)
    requires Shaped(generated) && AnchorsInRange(generated.hints)
    ensures Shaped(g) && !g.dep && g.hints == generated.hints
  {
    ResetHints(DepSolved(generated)).(dep := false)
  }

  /** The two solving loops main runs on a solved game, each from the bare hints: first
      with dependency analysis as the game has it, then, on the game that left, without it. */
  method Resolve(generated: Game) returns (last: Game, solveDep: nat, solveNodep: nat)
    requires Shaped(generated) && AnchorsInRange(generated.hints)
    ensures solveDep == Loops.QuietCount(RoundOf, ResetHints(generated), Rounds)
    ensures solveNodep == Loops.QuietCount(RoundOf, NodepStart(generated), Rounds)
    ensures last == Loops.Iterate(RoundOf, NodepStart(generated), Loops.RoundsRun(RoundOf, NodepStart(generated), Rounds))
    ensures Shaped(last) && last.hints == generated.hints && last.forced == generated.forced && !last.dep
    ensures solveDep < Rounds && solveNodep < Rounds
  {
    var dep;
    dep, solveDep := Solve(ResetHints(generated));
    last, solveNodep := Solve(ResetHints(dep).(dep := false));
  }

  /** What main makes of a generated game: nothing when it is impossible or unsolved;
      otherwise the round counts of the two re-solving loops, each below Rounds, and the
      printed puzzle exactly when the dependency-aware loop needed more than one round and
      the other one none. */
  predicate Selected(generated: Game, solveDep: nat, solveNodep: nat, puzzle: Option<string>)
    requires Shaped(generated) && AnchorsInRange(generated.hints)
  {
    && (Impossible(generated) || !Solved(generated) ==> solveDep == 0 && solveNodep == 0 && puzzle.None?)
    && (!Impossible(generated) && Solved(generated) ==>
         && solveDep == Loops.QuietCount(RoundOf, ResetHints(generated), Rounds)
         && solveNodep == Loops.QuietCount(RoundOf, NodepStart(generated), Rounds))
    && (puzzle.Some? <==> !Impossible(generated) && Solved(generated) && solveDep != 0 && solveNodep == 0)
    && (puzzle.Some? ==> puzzle.value == PrintPuzzle(generated))
    && solveDep < Rounds && solveNodep < Rounds
  }

  /** What main does with a generated game: skip it when impossible or unsolved, else
      re-solve it both ways and print it when only the dependency-aware solver needed more
      than its first round. */
  method Select(generated: Game) returns (solveDep: nat, solveNodep: nat, puzzle: Option<string>)
    requires Shaped(generated) && AnchorsInRange(generated.hints)
    ensures Selected(generated, solveDep, solveNodep, puzzle)
  {
    if Impossible(generated) || !Solved(generated) {
      return 0, 0, None;
    }
    var last;
    last, solveDep, solveNodep := Resolve(generated);
    if solveDep != 0 && solveNodep == 0 {
      puzzle := Some(PrintPuzzle(last));
    } else {
      puzzle := None;
    }
  }

  /** The first half of an iteration of main's outer loop: construct the game on the hints
      randomize drew, then run the generation loop on it. */
  method GenerateNew(hints: seq<Hint>) returns (generated: Game, stuck: bool, rounds: nat)
    requires RandomHints(hints)
    ensures Shaped(generated) && generated.hints == hints && generated.dep
    ensures AnchorsInRange(generated.hints)
    ensures rounds <= Rounds && (!stuck ==> rounds == Rounds)
    ensures Loops.Runs(GenStep, NewGame(hints), generated, rounds, stuck)
  {
    assert AnchorsInRange(hints);
    generated, stuck, rounds := Generate(NewGame(hints));
  }

  /** One iteration of main's outer loop on the hints randomize drew: build the game, run
      the generation loop on it for rounds passes, stuck or not, then select it. */
  method Trial(hints: seq<Hint>) returns (generated: Game, stuck: bool, rounds: nat, solveDep: nat, solveNodep: nat, puzzle: Option<string>)
    requires RandomHints(hints)
    ensures Shaped(generated) && generated.hints == hints && AnchorsInRange(generated.hints)
    ensures rounds <= Rounds && (!stuck ==> rounds == Rounds)
    ensures Selected(generated, solveDep, solveNodep, puzzle)
    ensures Loops.Runs(GenStep, NewGame(hints), generated, rounds, stuck)
  {
    generated, stuck, rounds := GenerateNew(hints);
    solveDep, solveNodep, puzzle := Select(generated);
  }

  /** With dependency analysis on, reset_possible can only remove candidates from what it
      computes with the analysis off. */
  lemma DependentOnlyNarrows(g: Game)
    requires Shaped(g)
    ensures forall c :: 0 <= c < Area ==>
      ResetPossible(g.(dep := true)).possible[c] <= ResetPossible(g.(dep := false)).possible[c]
  {
    var on, off := g.(dep := true), g.(dep := false);
    ResetPossibleMeans(on);
    ResetPossibleMeans(off);
    ReachesIgnoresPossible(on, off);
  }
}

=== FILE: fixing.dfy ===
/** update_fixed, update_not_possible and reset_fixed (src/main.cc:147-153, 252-311): the
    engine's one combined fixing rule and the orientation pruning it triggers. */
module Fixing {
  import opened Geometry
  import opened Masks
  import opened GameState
  import opened Possible

  /** No later square of a run repeats square i. */
  lemma NoLaterSquare(start: int, step: int, i: int, n: int)
    requires step == 1 || step == W
    ensures !SquareIn(start, step, i + 1, n, Square(start, step, i))
  {
    forall j | i + 1 <= j < n
      ensures Square(start, step, j) != Square(start, step, i)
    {
      SquaresIncrease(start, step, i, j);
    }
  }

  /** The counting do_squares pass of update_fixed: count[at]++ on every square from i on.
      Squares of a run are distinct, so each square gains exactly one. */
  function CountSquares(count: seq<nat>, start: int, step: int, n: int, i: nat): (r: seq<nat>)
    requires |count| == Area && (step == 1 || step == W)
    requires forall j :: i <= j < n ==> OnBoard(Square(start, step, j))
    decreases n - i
    ensures |r| == Area
    ensures forall c :: 0 <= c < Area ==> r[c] == count[c] + if SquareIn(start, step, i, n, c) then 1 else 0
  {
    if i >= n then count
    else
      var at := Square(start, step, i);
      assert OnBoard(at);
      NoLaterSquare(start, step, i, n);
      var r := CountSquares(count[at := count[at] + 1], start, step, n, i + 1);
      assert forall c :: c != at ==> (SquareIn(start, step, i, n, c) <==> SquareIn(start, step, i + 1, n, c));
      r
  }

  /** An orientation update_fixed counts: its bit is set and the piece is still possible on
      every one of its squares. */
  predicate CoverOk(g: Game, p: nat, o: nat)
    requires Shaped(g) && p < N
  {
    Valid(g, p, o) && Coverable(g, p, o)
  }

  /** Every counted orientation numbered lo or more covers cell c. */
  ghost predicate AllCoverFrom(g: Game, p: nat, c: int, lo: nat)
    requires Shaped(g) && p < N
  {
    forall o: nat :: lo <= o && CoverOk(g, p, o) ==> OnRun(g.hints[p], o, c)
  }

  /** The orientation loop of update_fixed from o on: valid_count counts the coverable
      orientations and count[c] those among them that cover c. So count[c] never exceeds
      valid_count, and reaches it exactly when every coverable orientation covers c. */
  function CountFrom(g: Game, p: nat, count: seq<nat>, validCount: nat, o: nat): (r: (seq<nat>, nat))
    requires Shaped(g) && p < N && |count| == Area
    decreases 2 * g.hints[p].size - o
    ensures |r.0| == Area
    ensures forall c :: 0 <= c < Area ==> r.0[c] - count[c] <= r.1 - validCount
    ensures forall c :: 0 <= c < Area ==> count[c] <= r.0[c]
    ensures forall c :: 0 <= c < Area ==>
      (r.0[c] - count[c] == r.1 - validCount <==> AllCoverFrom(g, p, c, o))
  {
    var h := g.hints[p];
    if o >= 2 * h.size then (count, validCount)
    else if o in g.validOrientation[p] && Coverable(g, p, o) then
      var count' := CountSquares(count, RunStart(h, o), Step(o), h.size, 0);
      CountedRun(g, p, count, o);
      CoverStep(g, p, o);
      CountFrom(g, p, count', validCount + 1, o + 1)
    else
      CoverStep(g, p, o);
      CountFrom(g, p, count, validCount, o + 1)
  }

  /** One orientation's do_squares pass adds one to exactly the cells of its run. */
  lemma CountedRun(g: Game, p: nat, count: seq<nat>, o: nat)
    requires Shaped(g) && p < N && |count| == Area && Coverable(g, p, o)
    ensures var h := g.hints[p];
      forall c :: 0 <= c < Area ==>
        CountSquares(count, RunStart(h, o), Step(o), h.size, 0)[c] == count[c] + if OnRun(h, o, c) then 1 else 0
  {
    var h := g.hints[p];
    forall c | 0 <= c < Area
      ensures CountSquares(count, RunStart(h, o), Step(o), h.size, 0)[c] == count[c] + if OnRun(h, o, c) then 1 else 0
    {
      SquaresOfRun(h, o, c);
    }
  }

  /** Peeling orientation o off AllCoverFrom. */
  lemma CoverStep(g: Game, p: nat, o: nat)
    requires Shaped(g) && p < N
    ensures forall c :: AllCoverFrom(g, p, c, o) <==>
      (CoverOk(g, p, o) ==> OnRun(g.hints[p], o, c)) && AllCoverFrom(g, p, c, o + 1)
  {
  }

  /** The counters update_fixed computes for piece p, starting from zero. */
  function Counts(g: Game, p: nat): (r: (seq<nat>, nat))
    requires Shaped(g) && p < N
    ensures |r.0| == Area
  {
    CountFrom(g, p, seq(Area, c => 0), 0, 0)
  }

  /** The condition under which update_fixed writes piece p into cell c. */
  predicate Writes(g: Game, p: nat, count: seq<nat>, validCount: nat, c: int)
    requires Shaped(g) && p < N && |count| == Area && 0 <= c < Area
  {
    g.fixed[c] == {} && (count[c] == validCount || (g.forced[c] && g.possible[c] == PieceMask(p)))
  }

  /** do_squares(..., at != update_at): every square on the board and none equal to u. */
  predicate Misses(h: Hint, o: nat, u: int) {
    DoSquares(h.size, RunStart(h, o), Step(o), c => c != u)
  }

  lemma MissesMeans(h: Hint, o: nat, u: int)
    ensures Misses(h, o, u) <==> Placed(h, o) && !OnRun(h, o, u)
  {
  }

  /** update_not_possible's orientation loop from o on: clears every set bit whose run lies
      on the board and misses u. */
  function PruneFrom(h: Hint, valid: set<nat>, u: int, o: nat): (r: set<nat>)
    decreases 2 * h.size - o
    ensures forall x: nat :: x in r <==> x in valid && !(o <= x && InRange(h, x) && Misses(h, x, u))
  {
    if o >= 2 * h.size then valid
    else if o in valid && Misses(h, o, u) then PruneFrom(h, valid - {o}, u, o + 1)
    else PruneFrom(h, valid, u, o + 1)
  }

  /** update_not_possible(update_at, mask, piece): only bits of this piece are cleared, and
      every remaining in-range orientation whose run is on the board covers update_at. */
  function UpdateNotPossible(g: Game, updateAt: int, p: nat): (r: Game)
    requires Shaped(g) && p < N
    ensures Shaped(r) && r == g.(validOrientation := r.validOrientation)
    ensures r.validOrientation[p] <= g.validOrientation[p]
    ensures forall q :: 0 <= q < N && q != p ==> r.validOrientation[q] == g.validOrientation[q]
    ensures forall o: nat :: o in r.validOrientation[p] && InRange(g.hints[p], o) && Placed(g.hints[p], o) ==>
      OnRun(g.hints[p], o, updateAt)
    ensures forall o: nat :: o in g.validOrientation[p] - r.validOrientation[p] ==>
      InRange(g.hints[p], o) && Placed(g.hints[p], o) && !OnRun(g.hints[p], o, updateAt)
  {
    var h := g.hints[p];
    var valid := PruneFrom(h, g.validOrientation[p], updateAt, 0);
    forall o: nat
      ensures Misses(h, o, updateAt) <==> Placed(h, o) && !OnRun(h, o, updateAt)
    {
      MissesMeans(h, o, updateAt);
    }
    g.(validOrientation := g.validOrientation[p := valid])
  }

  /** Orientation o is pruned by some cell written from lo on. */
  ghost predicate PrunedFrom(g: Game, p: nat, count: seq<nat>, validCount: nat, o: nat, lo: nat)
    requires Shaped(g) && p < N && |count| == Area
  {
    exists u :: lo <= u < Area && Writes(g, p, count, validCount, u) && !OnRun(g.hints[p], o, u)
  }

  /** The cell loop of update_fixed from cell at on. A cell's own entry of fixed_ is only
      written in its own iteration, so the write condition can be read from the input. */
  function FixLoop(g: Game, p: nat, count: seq<nat>, validCount: nat, at: nat): (r: (Game, bool))
    requires Shaped(g) && p < N && |count| == Area
    decreases Area - at
    ensures Shaped(r.0) && r.0 == g.(fixed := r.0.fixed, validOrientation := r.0.validOrientation)
    ensures forall c :: 0 <= c < Area ==>
      r.0.fixed[c] == if at <= c && Writes(g, p, count, validCount, c) then PieceMask(p) else g.fixed[c]
    ensures forall q :: 0 <= q < N && q != p ==> r.0.validOrientation[q] == g.validOrientation[q]
    ensures r.0.validOrientation[p] <= g.validOrientation[p]
    ensures r.1 <==> exists c :: at <= c < Area && Writes(g, p, count, validCount, c)
    ensures !r.1 ==> r.0 == g
  {
    if at >= Area then (g, false)
    else if Writes(g, p, count, validCount, at) then
      var g1 := UpdateNotPossible(g.(fixed := g.fixed[at := PieceMask(p)]), at, p);
      var r := FixLoop(g1, p, count, validCount, at + 1);
      assert forall c :: at < c < Area ==> (Writes(g1, p, count, validCount, c) <==> Writes(g, p, count, validCount, c));
      (r.0, true)
    else
      FixLoop(g, p, count, validCount, at + 1)
  }

  /** The orientations the cell loop prunes: those in range, on the board, and missing a
      cell written from at on. */
  lemma {:induction false} FixLoopPrunes(g: Game, p: nat, count: seq<nat>, validCount: nat, at: nat)
    requires Shaped(g) && p < N && |count| == Area
    decreases Area - at
    ensures forall o: nat :: o in FixLoop(g, p, count, validCount, at).0.validOrientation[p] <==>
      o in g.validOrientation[p]
      && !(InRange(g.hints[p], o) && Placed(g.hints[p], o) && PrunedFrom(g, p, count, validCount, o, at))
  {
    if at < Area {
      if Writes(g, p, count, validCount, at) {
        var g1 := UpdateNotPossible(g.(fixed := g.fixed[at := PieceMask(p)]), at, p);
        FixLoopPrunes(g1, p, count, validCount, at + 1);
        PrunesAfterWrite(g, g1, FixLoop(g1, p, count, validCount, at + 1).0, p, count, validCount, at, at + 1);
      } else {
        FixLoopPrunes(g, p, count, validCount, at + 1);
        PrunesAfterSkip(g, FixLoop(g, p, count, validCount, at + 1).0, p, count, validCount, at);
      }
    }
  }

  /** The step of FixLoopPrunes at a written cell: the write prunes the orientations that
      miss it, and the rest of the loop prunes those missing a later written cell. */
  lemma PrunesAfterWrite(g: Game, g1: Game, r: Game, p: nat, count: seq<nat>, validCount: nat, at: nat, next: nat)
    requires Shaped(g) && p < N && |count| == Area && at < Area && next == at + 1
    requires Writes(g, p, count, validCount, at)
    requires g1 == UpdateNotPossible(g.(fixed := g.fixed[at := PieceMask(p)]), at, p)
    requires Shaped(r)
    requires forall o: nat :: o in r.validOrientation[p] <==>
      o in g1.validOrientation[p]
      && !(InRange(g.hints[p], o) && Placed(g.hints[p], o) && PrunedFrom(g1, p, count, validCount, o, next))
    ensures forall o: nat :: o in r.validOrientation[p] <==>
      o in g.validOrientation[p]
      && !(InRange(g.hints[p], o) && Placed(g.hints[p], o) && PrunedFrom(g, p, count, validCount, o, at))
  {
    var h := g.hints[p];
    PrunedStep(g, p, count, validCount, at);
    PrunedFromAfterWrite(g, g1, p, count, validCount, at, next);
    forall o: nat
      ensures o in r.validOrientation[p] <==>
        o in g.validOrientation[p] && !(InRange(h, o) && Placed(h, o) && PrunedFrom(g, p, count, validCount, o, at))
    {
      assert o in g1.validOrientation[p] <==> o in g.validOrientation[p] && !(InRange(h, o) && Placed(h, o) && !OnRun(h, o, at));
    }
  }

  /** The step of FixLoopPrunes at a cell that is not written: it prunes nothing. */
  lemma PrunesAfterSkip(g: Game, r: Game, p: nat, count: seq<nat>, validCount: nat, at: nat)
    requires Shaped(g) && p < N && |count| == Area && at < Area
    requires !Writes(g, p, count, validCount, at)
    requires Shaped(r)
    requires forall o: nat :: o in r.validOrientation[p] <==>
      o in g.validOrientation[p]
      && !(InRange(g.hints[p], o) && Placed(g.hints[p], o) && PrunedFrom(g, p, count, validCount, o, at + 1))
    ensures forall o: nat :: o in r.validOrientation[p] <==>
      o in g.validOrientation[p]
      && !(InRange(g.hints[p], o) && Placed(g.hints[p], o) && PrunedFrom(g, p, count, validCount, o, at))
  {
    PrunedStep(g, p, count, validCount, at);
  }

  /** Writing cell at does not change which later cells are written. */
  lemma PrunedFromAfterWrite(g: Game, g1: Game, p: nat, count: seq<nat>, validCount: nat, at: nat, next: nat)
    requires Shaped(g) && p < N && |count| == Area && at < Area && next == at + 1
    requires g1 == UpdateNotPossible(g.(fixed := g.fixed[at := PieceMask(p)]), at, p)
    ensures forall o: nat :: PrunedFrom(g1, p, count, validCount, o, next) <==> PrunedFrom(g, p, count, validCount, o, next)
  {
    assert forall c :: at < c < Area ==> (Writes(g1, p, count, validCount, c) <==> Writes(g, p, count, validCount, c));
  }

  lemma PrunedStep(g: Game, p: nat, count: seq<nat>, validCount: nat, at: nat)
    requires Shaped(g) && p < N && |count| == Area && at < Area
    ensures forall o: nat :: PrunedFrom(g, p, count, validCount, o, at) <==>
      (Writes(g, p, count, validCount, at) && !OnRun(g.hints[p], o, at)) || PrunedFrom(g, p, count, validCount, o, at + 1)
  {
  }

  /** A cell every coverable orientation of p covers (vacuously every cell when p has no
      coverable orientation). */
  ghost predicate CoveredByAll(g: Game, p: nat, c: int)
    requires Shaped(g) && p < N
  {
    AllCoverFrom(g, p, c, 0)
  }

  /** The cells update_fixed(p) writes, described without the counters. */
  ghost predicate FixesCell(g: Game, p: nat, c: int)
    requires Shaped(g) && p < N && 0 <= c < Area
  {
    g.fixed[c] == {} && (CoveredByAll(g, p, c) || (g.forced[c] && g.possible[c] == PieceMask(p)))
  }

  /** update_fixed(piece): writes piece_mask(piece) into some unfixed cells and prunes
      only this piece's orientations; reports whether it wrote anything. Which cells and
      which orientations: UpdateFixedWrites and UpdateFixedPrunes. */
  function UpdateFixed(g: Game, p: nat): (r: (Game, bool))
    requires Shaped(g) && p < N
    ensures Shaped(r.0) && r.0 == g.(fixed := r.0.fixed, validOrientation := r.0.validOrientation)
    ensures forall c :: 0 <= c < Area ==> r.0.fixed[c] == g.fixed[c] || (g.fixed[c] == {} && r.0.fixed[c] == PieceMask(p))
    ensures forall q :: 0 <= q < N && q != p ==> r.0.validOrientation[q] == g.validOrientation[q]
    ensures r.0.validOrientation[p] <= g.validOrientation[p]
    ensures r.1 <==> exists c :: 0 <= c < Area && NewlyFixed(g, r.0, c)
    ensures !r.1 ==> r.0 == g
  {
    var counted := Counts(g, p);
    var r := FixLoop(g, p, counted.0, counted.1, 0);
    if r.1 then
      var c :| 0 <= c < Area && Writes(g, p, counted.0, counted.1, c);
      assert NewlyFixed(g, r.0, c);
      r
    else r
  }

  /** The cells update_fixed(p) writes: an unfixed cell becomes piece_mask(p) exactly when
      every coverable orientation of p covers it (count[at] == valid_count, which holds for
      every unfixed cell when valid_count is 0), or when it is forced and p is its only
      candidate. */
  lemma UpdateFixedWrites(g: Game, p: nat)
    requires Shaped(g) && p < N
    ensures forall c :: 0 <= c < Area ==>
      UpdateFixed(g, p).0.fixed[c] == if FixesCell(g, p, c) then PieceMask(p) else g.fixed[c]
    ensures UpdateFixed(g, p).1 <==> exists c :: 0 <= c < Area && FixesCell(g, p, c)
  {
    var counted := Counts(g, p);
    assert forall c :: 0 <= c < Area ==> (Writes(g, p, counted.0, counted.1, c) <==> FixesCell(g, p, c));
  }

  /** The orientations update_fixed(p) prunes: those in range whose run lies on the board
      and misses some cell the call wrote. */
  lemma UpdateFixedPrunes(g: Game, p: nat)
    requires Shaped(g) && p < N
    ensures forall o: nat :: o in UpdateFixed(g, p).0.validOrientation[p] <==>
      o in g.validOrientation[p]
      && !(InRange(g.hints[p], o) && Placed(g.hints[p], o)
           && exists u :: 0 <= u < Area && FixesCell(g, p, u) && !OnRun(g.hints[p], o, u))
  {
    var counted := Counts(g, p);
    FixLoopPrunes(g, p, counted.0, counted.1, 0);
    assert forall c :: 0 <= c < Area ==> (Writes(g, p, counted.0, counted.1, c) <==> FixesCell(g, p, c));
  }

  /** Writing a piece mask into unfixed cells keeps every fixed_ entry a single piece. */
  lemma FixedPiecesStep(g: Game, g': Game, p: nat)
    requires Shaped(g) && Shaped(g') && p < N
    requires forall c :: 0 <= c < Area ==> g'.fixed[c] == g.fixed[c] || (g.fixed[c] == {} && g'.fixed[c] == PieceMask(p))
    ensures FixedArePieces(g) ==> FixedArePieces(g')
  {
    if FixedArePieces(g) {
      forall c | 0 <= c < Area
        ensures PieceOrEmpty(g'.fixed[c])
      {
        assert PieceOrEmpty(g.fixed[c]);
      }
    }
  }

  /** reset_fixed's piece loop from piece p on; later pieces see the cells earlier ones fixed. */
  function ResetFixedFrom(g: Game, p: nat): (r: (Game, bool))
    requires Shaped(g) && p <= N
    decreases N - p
    ensures Shaped(r.0) && Progress(g, r.0)
    ensures r.0 == g.(fixed := r.0.fixed, validOrientation := r.0.validOrientation)
  {
    if p == N then (g, false)
    else
      var step := UpdateFixed(g, p);
      assert Progress(g, step.0);
      var rest := ResetFixedFrom(step.0, p + 1);
      ProgressTransitive(g, step.0, rest.0);
      (rest.0, step.1 || rest.1)
  }

  /** reset_fixed reports an update exactly when fixed_ changed, and when it reports none
      the state is untouched. */
  lemma {:induction false} ResetFixedFromReports(g: Game, p: nat)
    requires Shaped(g) && p <= N
    decreases N - p
    ensures ResetFixedFrom(g, p).1 <==> exists c :: 0 <= c < Area && NewlyFixed(g, ResetFixedFrom(g, p).0, c)
    ensures !ResetFixedFrom(g, p).1 ==> ResetFixedFrom(g, p).0 == g
  {
    if p < N {
      var step := UpdateFixed(g, p);
      var rest := ResetFixedFrom(step.0, p + 1);
      ResetFixedFromReports(step.0, p + 1);
      if step.1 {
        var c :| 0 <= c < Area && NewlyFixed(g, step.0, c);
        assert NewlyFixed(g, rest.0, c);
      }
    }
  }

  /** Every entry reset_fixed writes is the mask of a single piece. */
  lemma {:induction false} ResetFixedFromKeepsPieces(g: Game, p: nat)
    requires Shaped(g) && p <= N
    decreases N - p
    ensures FixedArePieces(g) ==> FixedArePieces(ResetFixedFrom(g, p).0)
  {
    if p < N && FixedArePieces(g) {
      var step := UpdateFixed(g, p);
      FixedPiecesStep(g, step.0, p);
      ResetFixedFromKeepsPieces(step.0, p + 1);
    }
  }

  /** reset_fixed: run update_fixed for every piece in order; true iff some cell was fixed.
      It only touches fixed_ and valid_orientation_, monotonically (ResetFixedReports,
      ResetFixedKeepsPieces). */
  function ResetFixed(g: Game): (r: (Game, bool))
    requires Shaped(g)
    ensures Shaped(r.0) && Progress(g, r.0)
    ensures r.0 == g.(fixed := r.0.fixed, validOrientation := r.0.validOrientation)
  {
    ResetFixedFrom(g, 0)
  }

  /** reset_fixed reports an update exactly when some cell became fixed; when it reports
      none, not even an orientation was pruned. */
  lemma ResetFixedReports(g: Game)
    requires Shaped(g)
    ensures ResetFixed(g).1 <==> exists c :: 0 <= c < Area && NewlyFixed(g, ResetFixed(g).0, c)
    ensures !ResetFixed(g).1 ==> ResetFixed(g).0 == g
  {
    ResetFixedFromReports(g, 0);
  }

  lemma ResetFixedKeepsPieces(g: Game)
    requires Shaped(g)
    ensures FixedArePieces(g) ==> FixedArePieces(ResetFixed(g).0)
  {
    ResetFixedFromKeepsPieces(g, 0);
  }
}

=== FILE: gameid.dfy ===
/** GameId (www/stc/game.js:600-615): a level name and a puzzle index, written "level.index". */
module GameIds {
  import opened Decimal
  import opened Optional

  /** The position of the first '.' in s, or |s| when there is none. */
  function FirstDot(s: string): (k: nat)
    ensures k <= |s| && '.' !in s[..k]
    ensures k < |s| ==> s[k] == '.'
  {
    if |s| == 0 || s[0] == '.' then 0
    else
      var k := 1 + FirstDot(s[1..]);
      assert s[..k] == [s[0]] + s[1..][..k - 1];
      k
  }

  /** id.split('.')[0]: the text before the first dot. */
  function FirstComponent(s: string): string {
    s[..FirstDot(s)]
  }

  /** id.split('.')[1]: the text between the first and second dots, undefined without a dot. */
  function SecondComponent(s: string): Option<string> {
    var k := FirstDot(s);
    if k == |s| then None else Some(FirstComponent(s[k + 1..]))
  }

  datatype GameId = GameId(level: string, index: Parsed)

  /** The constructor: level is the first component, index parseInt of the second, which
      is NaN when the second is undefined. */
  function Parse(id: string): (g: GameId)
    ensures '.' !in g.level
  {
    var index := match SecondComponent(id)
      case None => NaN
      case Some(t) => ParseInt(t);
    GameId(FirstComponent(id), index)
  }

  /** How a number prints when concatenated to a string. */
  function IndexText(n: Parsed): string {
    match n
    case Num(v) => NatToString(v)
    case NaN => "NaN"
  }

  /** this.index + 1: NaN stays NaN. */
  function Succ(n: Parsed): Parsed {
    match n
    case Num(v) => Num(v + 1)
    case NaN => NaN
  }

  /** str(): level + "." + index. */
  function Str(g: GameId): string {
    g.level + "." + IndexText(g.index)
  }

  /** next(): a new GameId from level + "." + (index + 1). */
  function Next(g: GameId): GameId {
    Parse(g.level + "." + IndexText(Succ(g.index)))
  }

  /** Splitting level + "." + rest at the first dot gives back level when level has none. */
  lemma FirstDotAfter(level: string, rest: string)
    requires '.' !in level
    ensures FirstDot(level + "." + rest) == |level|
    ensures FirstComponent(level + "." + rest) == level
    ensures (level + "." + rest)[|level| + 1..] == rest
  {
    var s := level + "." + rest;
    assert s[|level|] == '.';
    assert s[..|level|] == level;
  }

  /** The printed index contains no dot, so it is its own second component. */
  lemma IndexTextNoDot(n: Parsed)
    ensures '.' !in IndexText(n)
  {
    if n.Num? {
      assert AllDigits(NatToString(n.value));
    }
  }

  /** Parse reads back what Str writes. */
  lemma ParseStr(g: GameId)
    requires '.' !in g.level
    ensures Parse(Str(g)) == g
  {
    var t := IndexText(g.index);
    FirstDotAfter(g.level, t);
    IndexTextNoDot(g.index);
    FirstDotAfter(t, "");
    assert t + "." + "" == t + ".";
    assert FirstDot(t) == |t|;
    assert FirstComponent(t) == t;
    match g.index
    case Num(v) =>
      ParseIntRoundTrip(v, []);
      assert NatToString(v) + [] == NatToString(v);
    case NaN =>
  }

  /** next() of "L.n" is level L with index n + 1, and its str() is "L." + (n + 1); from
      NaN it stays NaN. */
  lemma NextIncrements(g: GameId)
    requires '.' !in g.level
    ensures Next(g) == GameId(g.level, Succ(g.index))
    ensures Str(Next(g)) == g.level + "." + IndexText(Succ(g.index))
  {
    ParseStr(GameId(g.level, Succ(g.index)));
  }

  /** The id "L.n" that next() builds parses to level L and index n, and stepping it with
      next() keeps the level and counts up. */
  lemma ParseThenNext(level: string, n: nat)
    requires '.' !in level
    ensures Parse(level + "." + NatToString(n)) == GameId(level, Num(n))
    ensures Next(Parse(level + "." + NatToString(n))) == GameId(level, Num(n + 1))
    ensures Str(Next(Parse(level + "." + NatToString(n)))) == level + "." + NatToString(n + 1)
  {
    ParseStr(GameId(level, Num(n)));
    NextIncrements(GameId(level, Num(n)));
  }
}

=== FILE: geometry.dfy ===
/** Board layout and orientation geometry of the propagation engine (src/main.cc, class Game).

    The board is a row-major array of W*H cells. Column 0 of every row is a border
    sentinel. A piece is anchored at a cell and has a length; it is placed in one of
    2*length straight orientations, each an ordered run of length cells. */
module Geometry {

  /** Board width (border column included), board height, and number of pieces. */
  const W: int := 13
  const H: int := 12
  const N: int := 33
  /** Number of cells of the board array. */
  const Area: int := 156

  lemma AreaIsWTimesH()
    ensures Area == W * H
  {
  }

  /** The constructor marks cell r*W of every row r as a border sentinel. */
  predicate IsBorder(at: int) {
    at % W == 0
  }

  /** A cell do_squares accepts: inside the array and not a border sentinel. */
  predicate OnBoard(at: int) {
    0 <= at < Area && !IsBorder(at)
  }

  function Row(at: int): int { at / W }

  function Col(at: int): int { at % W }

  /** Cell (r, c) of the row-major array. */
  lemma CellOf(r: int, c: int)
    requires 0 <= c < W
    ensures Row(r * W + c) == r && Col(r * W + c) == c
    ensures IsBorder(r * W + c) <==> c == 0
  {
    assert r * W + c == c + W * r;
  }

  /** A hint: the anchor cell of a piece and the piece's length. */
  datatype Hint = Hint(at: int, size: int)

  /** How many squares before the anchor the run of orientation o starts. */
  function Offset(size: int, o: nat): int {
    (size - 1) - o / 2
  }

  /** Odd orientations are vertical (one row per square), even ones horizontal. */
  function Step(o: nat): int {
    if o % 2 == 1 then W else 1
  }

  /** The first square of orientation o. */
  function RunStart(h: Hint, o: nat): int {
    h.at - Offset(h.size, o) * Step(o)
  }

  /** The i-th square of a run. */
  function Square(start: int, step: int, i: int): int {
    start + i * step
  }

  /** Walks the n squares of a run in order, stopping with false at the first square that
      is off the board or that fun rejects; true when every square passed. */
  function DoSquares(n: int, start: int, step: int, fun: int -> bool): (ok: bool)
    ensures ok <==> forall i :: 0 <= i < n ==> OnBoard(Square(start, step, i)) && fun(Square(start, step, i))
  {
    DoSquaresFrom(n, start, step, fun, 0)
  }

  function DoSquaresFrom(n: int, start: int, step: int, fun: int -> bool, i: nat): (ok: bool)
    decreases n - i
    ensures ok <==> forall j :: i <= j < n ==> OnBoard(Square(start, step, j)) && fun(Square(start, step, j))
  {
    if i >= n then true
    else
      var at := Square(start, step, i);
      if !OnBoard(at) then false
      else if !fun(at) then false
      else DoSquaresFrom(n, start, step, fun, i + 1)
  }

  /** Cell c is one of the squares of orientation o of hint h. */
  predicate OnRun(h: Hint, o: nat, c: int) {
    exists i :: 0 <= i < h.size && Square(RunStart(h, o), Step(o), i) == c
  }

  /** Every square of orientation o lies on the board. */
  predicate Placed(h: Hint, o: nat) {
    DoSquares(h.size, RunStart(h, o), Step(o), c => true)
  }

  /** The anchor is the square with index Offset, so every orientation passes through it. */
  lemma AnchorOnRun(h: Hint, o: nat)
    requires o < 2 * h.size
    ensures 0 <= Offset(h.size, o) < h.size
    ensures Square(RunStart(h, o), Step(o), Offset(h.size, o)) == h.at
    ensures OnRun(h, o, h.at)
  {
    assert Square(RunStart(h, o), Step(o), Offset(h.size, o)) == h.at;
  }

  /** Squares of a run are strictly increasing, hence pairwise distinct. */
  lemma SquaresIncrease(start: int, step: int, i: int, j: int)
    requires step == 1 || step == W
    requires i < j
    ensures Square(start, step, i) < Square(start, step, j)
  {
    if step == 1 {
    } else {
      assert Square(start, step, j) - Square(start, step, i) == (j - i) * W;
    }
  }

  /** An accepted horizontal run never wraps into the next row: a wrap would have to pass
      the border sentinel in column 0. */
  lemma {:induction false} HorizontalRunStaysInRow(h: Hint, o: nat)
    requires o % 2 == 0
    requires Placed(h, o)
    ensures forall i :: 0 <= i < h.size ==> Row(Square(RunStart(h, o), Step(o), i)) == Row(RunStart(h, o))
  {
    var start := RunStart(h, o);
    forall i | 0 <= i < h.size
      ensures Row(Square(start, 1, i)) == Row(start)
    {
      RowConstant(start, h.size, i);
    }
  }

  lemma {:induction false} RowConstant(start: int, n: int, i: int)
    requires forall j :: 0 <= j < n ==> OnBoard(Square(start, 1, j))
    requires 0 <= i < n
    ensures Row(Square(start, 1, i)) == Row(start)
  {
    if i > 0 {
      RowConstant(start, n, i - 1);
      assert OnBoard(Square(start, 1, i));
      assert Square(start, 1, i) == Square(start, 1, i - 1) + 1;
    }
  }

  /** An accepted vertical run stays in the anchor's column. */
  lemma {:induction false} VerticalRunStaysInColumn(h: Hint, o: nat)
    requires o % 2 == 1
    requires Placed(h, o)
    ensures forall i :: 0 <= i < h.size ==> Col(Square(RunStart(h, o), Step(o), i)) == Col(RunStart(h, o))
  {
    var start := RunStart(h, o);
    forall i | 0 <= i < h.size
      ensures Col(Square(start, W, i)) == Col(start)
    {
      ColConstant(start, i);
    }
  }

  lemma {:induction false} ColConstant(start: int, i: nat)
    ensures Col(Square(start, W, i)) == Col(start)
  {
    if i > 0 {
      ColConstant(start, i - 1);
      assert Square(start, W, i) == Square(start, W, i - 1) + W;
    }
  }
}

=== FILE: grid.dfy ===
/** The browser client's Grid (www/stc/game.js:269-292, 558-588): loading a level from its
    row strings, and the win check. */
module Grid {
  import opened Optional
  import opened Lines

  /** A cell's value as the level text has it: a hint digit, '.' for a dot, ' ' otherwise. */
  type Board = seq<seq<char>>

  /** `value > 0 && value <= 9` on a one-character string: JavaScript converts it to a
      number, so exactly '1' to '9' pass (' ' becomes 0, '.' and letters NaN). */
  predicate IsHintChar(ch: char) {
    '1' <= ch <= '9'
  }

  function HintValue(ch: char): int
    requires IsHintChar(ch)
  {
    ch as int - '0' as int
  }

  /** The lines load creates for row ri from column ci on, left to right. */
  function RowLines(row: seq<char>, ri: int, ci: nat): (ls: seq<Line>)
    requires ci <= |row|
    decreases |row| - ci
    ensures forall i :: 0 <= i < |ls| ==>
      (ls[i].r == ri && ci <= ls[i].c < |row|
       && IsHintChar(row[ls[i].c]) && ls[i] == NewLine(HintValue(row[ls[i].c]), ri, ls[i].c))
    ensures forall k :: ci <= k < |row| && IsHintChar(row[k]) ==> exists i :: 0 <= i < |ls| && ls[i].c == k
  {
    if ci == |row| then []
    else
      var rest := RowLines(row, ri, ci + 1);
      if IsHintChar(row[ci]) then
        var ls := [NewLine(HintValue(row[ci]), ri, ci)] + rest;
        assert forall i :: 0 < i < |ls| ==> ls[i] == rest[i - 1];
        assert forall k :: ci < k < |row| && IsHintChar(row[k]) ==> exists i :: 0 <= i < |ls| && ls[i].c == k by {
          forall k | ci < k < |row| && IsHintChar(row[k])
            ensures exists i :: 0 <= i < |ls| && ls[i].c == k
          {
            var i :| 0 <= i < |rest| && rest[i].c == k;
            assert ls[i + 1].c == k;
          }
        }
        assert ls[0].c == ci;
        ls
      else rest
  }

  /** The lines load creates for the rows from ri on, in row-major order. */
  function LoadLines(rows: seq<seq<char>>, ri: nat): (ls: seq<Line>)
    requires ri <= |rows|
    decreases |rows| - ri
    ensures forall i :: 0 <= i < |ls| ==>
      (ri <= ls[i].r < |rows| && 0 <= ls[i].c < |rows[ls[i].r]|
       && IsHintChar(rows[ls[i].r][ls[i].c]) && ls[i] == NewLine(HintValue(rows[ls[i].r][ls[i].c]), ls[i].r, ls[i].c))
    ensures forall r, k :: ri <= r < |rows| && 0 <= k < |rows[r]| && IsHintChar(rows[r][k]) ==>
      exists i :: 0 <= i < |ls| && ls[i].r == r && ls[i].c == k
  {
    if ri == |rows| then []
    else
      var here := RowLines(rows[ri], ri, 0);
      var rest := LoadLines(rows, ri + 1);
      var ls := here + rest;
      assert forall i :: 0 <= i < |here| ==> ls[i] == here[i];
      assert forall i :: 0 <= i < |rest| ==> ls[|here| + i] == rest[i];
      forall r, k | ri <= r < |rows| && 0 <= k < |rows[r]| && IsHintChar(rows[r][k])
        ensures exists i :: 0 <= i < |ls| && ls[i].r == r && ls[i].c == k
      {
        if r == ri {
          var i :| 0 <= i < |here| && here[i].c == k;
          assert ls[i].r == r && ls[i].c == k;
        } else {
          var i :| 0 <= i < |rest| && rest[i].r == r && rest[i].c == k;
          assert ls[|here| + i].r == r && ls[|here| + i].c == k;
        }
      }
      ls
  }

  /** load(rows): one cell per character, and a Line for every hint digit. */
  function Load(rows: seq<string>): (res: (Board, seq<Line>))
    ensures res.0 == rows
    ensures forall i :: 0 <= i < |res.1| ==>
      (0 <= res.1[i].r < |rows| && 0 <= res.1[i].c < |rows[res.1[i].r]|
       && IsHintChar(rows[res.1[i].r][res.1[i].c])
       && res.1[i] == NewLine(HintValue(rows[res.1[i].r][res.1[i].c]), res.1[i].r, res.1[i].c))
    ensures forall r, k :: 0 <= r < |rows| && 0 <= k < |rows[r]| && IsHintChar(rows[r][k]) ==>
      exists i :: 0 <= i < |res.1| && res.1[i].r == r && res.1[i].c == k
  {
    (rows, LoadLines(rows, 0))
  }

  /** The size load returns, { width: grid[0].length, height: grid.length }: the first row's
      cell count and the row count. None where load throws instead, which is on an empty
      level, after it has already stored the empty grid and line list that Load gives. */
  function LoadSize(rows: seq<string>): (size: Option<(nat, nat)>)
    ensures size.None? <==> |rows| == 0
    ensures size.Some? ==> size.value.1 == |Load(rows).0| && size.value.0 == |Load(rows).0[0]|
  {
    if |rows| == 0 then None else Some((|rows[0]|, |rows|))
  }

  /** The covered map check builds: every cell some line's covered() lists. */
  function CoveredCells(lines: seq<Line>): (cells: set<Pos>)
    ensures forall p :: p in cells <==> exists i :: 0 <= i < |lines| && p in LineCovered(lines[i])
  {
    if |lines| == 0 then {}
    else
      var rest := CoveredCells(lines[1..]);
      var cells := (set p | p in LineCovered(lines[0])) + rest;
      forall p
        ensures p in cells <==> exists i :: 0 <= i < |lines| && p in LineCovered(lines[i])
      {
        if p in rest {
          var i :| 0 <= i < |lines| - 1 && p in LineCovered(lines[1..][i]);
          assert p in LineCovered(lines[i + 1]);
        }
        if exists i :: 0 <= i < |lines| && p in LineCovered(lines[i]) {
          var i :| 0 <= i < |lines| && p in LineCovered(lines[i]);
          if i > 0 {
            assert p in LineCovered(lines[1..][i - 1]);
          }
        }
      }
      cells
  }

  /** Lines pushed to blink: those whose cached length differs from the hint. */
  function LineBlinks(lines: seq<Line>): (n: nat)
    ensures n == 0 <==> forall i :: 0 <= i < |lines| ==> lines[i].length == lines[i].targetLength
  {
    if |lines| == 0 then 0
    else
      var last := |lines| - 1;
      var front := LineBlinks(lines[..last]);
      assert forall i :: 0 <= i < last ==> lines[..last][i] == lines[i];
      front + if lines[last].length != lines[last].targetLength then 1 else 0
  }

  /** Cells of row r from column k on pushed to blink: dots nothing covers. */
  function RowBlinks(row: seq<char>, r: int, k: nat, covered: set<Pos>): (n: nat)
    requires k <= |row|
    decreases |row| - k
    ensures n == 0 <==> forall j :: k <= j < |row| && row[j] == '.' ==> Pos(r, j) in covered
  {
    if k == |row| then 0
    else (if row[k] == '.' && Pos(r, k) !in covered then 1 else 0) + RowBlinks(row, r, k + 1, covered)
  }

  function CellBlinks(board: Board, r: nat, covered: set<Pos>): (n: nat)
    requires r <= |board|
    decreases |board| - r
    ensures n == 0 <==> forall i, j :: r <= i < |board| && 0 <= j < |board[i]| && board[i][j] == '.' ==> Pos(i, j) in covered
  {
    if r == |board| then 0
    else RowBlinks(board[r], r, 0, covered) + CellBlinks(board, r + 1, covered)
  }

  /** check(): true iff nothing blinks, that is, iff every line has its hint's length and
      every dot is covered by some line. */
  function Check(lines: seq<Line>, board: Board): (ok: bool)
    ensures ok <==>
      (forall i :: 0 <= i < |lines| ==> lines[i].length == lines[i].targetLength)
      && (forall i, j :: 0 <= i < |board| && 0 <= j < |board[i]| && board[i][j] == '.' ==>
            exists l :: 0 <= l < |lines| && Pos(i, j) in LineCovered(lines[l]))
  {
    var covered := CoveredCells(lines);
    LineBlinks(lines) + CellBlinks(board, 0, covered) == 0
  }

  /** reset(board) on a non-empty grid: every line's reset(). */
  function ResetLines(lines: seq<Line>): (r: seq<Line>)
    ensures |r| == |lines|
    ensures forall i :: 0 <= i < |r| ==>
      r[i].h1 == r[i].h2 == Anchor(lines[i]) && r[i].length == 1 && r[i].targetLength == lines[i].targetLength
  {
    seq(|lines|, i requires 0 <= i < |lines| => Reset(lines[i]))
  }

  /** After a reset the board checks exactly when every hint is 1 and every dot sits on a
      hint's own cell. */
  lemma CheckAfterReset(lines: seq<Line>, board: Board)
    ensures Check(ResetLines(lines), board) <==>
      (forall i :: 0 <= i < |lines| ==> lines[i].targetLength == 1)
      && (forall i, j :: 0 <= i < |board| && 0 <= j < |board[i]| && board[i][j] == '.' ==>
            exists l :: 0 <= l < |lines| && Pos(i, j) == Anchor(lines[l]))
  {
    var rs := ResetLines(lines);
    assert forall l :: 0 <= l < |rs| ==> LineCovered(rs[l]) == [Anchor(lines[l]), Anchor(lines[l])];
  }
}

=== FILE: hints.dfy ===
/** reset_hints and init_valid_orientations (src/main.cc:51-65, 313-333): rebuild fixed_
    from the anchors and reopen every piece's orientations from the geometry. */
module Hints {
  import opened Geometry
  import opened Masks
  import opened GameState

  /** No later hint shares hint j's anchor, so hint j's write to fixed_ is the last one. */
  predicate LastAt(hints: seq<Hint>, j: int)
    requires 0 <= j < |hints|
  {
    forall k :: j < k < |hints| ==> hints[k].at != hints[j].at
  }

  /** Some hint is anchored at cell c. */
  predicate IsAnchor(hints: seq<Hint>, c: int) {
    exists j :: 0 <= j < |hints| && hints[j].at == c
  }

  /** The second loop of reset_hints: fixed_[hints_[i].first] = piece_mask(i) for each
      remaining hint i in order, so a later hint on the same cell overwrites. */
  function PlaceAnchors(fixed: seq<Mask>, hints: seq<Hint>, i: nat): (r: seq<Mask>)
    requires |fixed| == Area && |hints| <= MaskBits && AnchorsInRange(hints)
    decreases |hints| - i
    ensures |r| == Area
    ensures forall c :: 0 <= c < Area && (forall j :: i <= j < |hints| ==> hints[j].at != c) ==> r[c] == fixed[c]
    ensures forall j :: i <= j < |hints| && LastAt(hints, j) ==> r[hints[j].at] == {j}
  {
    if i >= |hints| then fixed
    else PlaceAnchors(fixed[hints[i].at := PieceMask(i)], hints, i + 1)
  }

  /** The do_squares test of init_valid_orientations: every square on the board and either
      the piece's own anchor or unfixed. */
  predicate Fits(g: Game, p: nat, o: nat)
    requires p < |g.hints|
  {
    var h := g.hints[p];
    DoSquares(h.size, RunStart(h, o), Step(o), c => c == h.at || FixedAt(g, c) == {})
  }

  /** init_valid_orientations, looping o upwards from o0; the int result is stored into a
      uint16, so only orientations below 16 survive. */
  function InitValidFrom(g: Game, p: nat, o0: nat): (r: set<nat>)
    requires p < |g.hints|
    decreases 2 * g.hints[p].size - o0
    ensures forall o :: o in r <==> o0 <= o && InRange(g.hints[p], o) && o < OrientationBits && Fits(g, p, o)
  {
    if o0 >= 2 * g.hints[p].size then {}
    else (if o0 < OrientationBits && Fits(g, p, o0) then {o0} else {}) + InitValidFrom(g, p, o0 + 1)
  }

  function InitValidOrientations(g: Game, p: nat): (r: set<nat>)
    requires p < |g.hints|
    ensures forall o :: o in r ==> o < OrientationBits && InRange(g.hints[p], o)
    ensures forall o: nat :: o in r <==>
      && InRange(g.hints[p], o) && o < OrientationBits
      && forall i :: 0 <= i < g.hints[p].size ==>
           var c := Square(RunStart(g.hints[p], o), Step(o), i);
           OnBoard(c) && (c == g.hints[p].at || FixedAt(g, c) == {})
  {
    InitValidFrom(g, p, 0)
  }

  /** reset_hints: clear fixed_, fix each anchor to its piece, then reopen each piece's
      orientations against the new fixed_. forced_ and possible_ are left alone. */
  function ResetHints(g: Game): (r: Game)
    requires Shaped(g) && AnchorsInRange(g.hints)
    ensures Shaped(r)
    ensures r.hints == g.hints && r.forced == g.forced && r.possible == g.possible
    ensures r.origPossible == g.origPossible && r.dep == g.dep
    ensures forall c :: 0 <= c < Area ==> (r.fixed[c] == {} <==> !IsAnchor(g.hints, c))
    ensures forall j :: 0 <= j < N && LastAt(g.hints, j) ==> r.fixed[g.hints[j].at] == PieceMask(j)
    ensures forall p :: 0 <= p < N ==> r.validOrientation[p] == InitValidOrientations(g.(fixed := r.fixed), p)
  {
    var g1 := g.(fixed := AnchoredFixed(g.hints));
    g1.(validOrientation := seq(N, p requires 0 <= p < N => InitValidOrientations(g1, p)))
  }

  /** fixed_ after reset_hints: all zero, then each anchor fixed to its piece. */
  function AnchoredFixed(hints: seq<Hint>): (r: seq<Mask>)
    requires |hints| == N && AnchorsInRange(hints)
    ensures |r| == Area
    ensures forall c :: 0 <= c < Area ==> (r[c] == {} <==> !IsAnchor(hints, c))
    ensures forall j :: 0 <= j < N && LastAt(hints, j) ==> r[hints[j].at] == {j}
  {
    var fixed := PlaceAnchors(seq(Area, c => {}), hints, 0);
    AnchorsFixed(hints, fixed);
    fixed
  }

  /** After PlaceAnchors from an all-zero array, a cell is fixed exactly when it is an anchor. */
  lemma AnchorsFixed(hints: seq<Hint>, fixed: seq<Mask>)
    requires |hints| == N && AnchorsInRange(hints)
    requires fixed == PlaceAnchors(seq(Area, c => {}), hints, 0)
    ensures forall c :: 0 <= c < Area ==> (fixed[c] == {} <==> !IsAnchor(hints, c))
  {
    forall c | 0 <= c < Area
      ensures fixed[c] == {} <==> !IsAnchor(hints, c)
    {
      if IsAnchor(hints, c) {
        var j :| 0 <= j < |hints| && hints[j].at == c;
        var k := LastAnchorIndex(hints, j);
        assert fixed[c] == {k};
      }
    }
  }

  /** The last hint anchored on the same cell as hint j. */
  function LastAnchorIndex(hints: seq<Hint>, j: nat): (k: nat)
    requires j < |hints|
    decreases |hints| - j
    ensures j <= k < |hints| && hints[k].at == hints[j].at && LastAt(hints, k)
  {
    if LastAt(hints, j) then j
    else
      var k :| j < k < |hints| && hints[k].at == hints[j].at;
      LastAnchorIndex(hints, k)
  }

  /** Bit o of valid_orientation_[p] is set after reset_hints iff o < 2*size, o fits in the
      uint16, and the run lies on the board touching no anchor but its own. */
  lemma ResetHintsValid(g: Game, p: nat, o: nat)
    requires Shaped(g) && AnchorsInRange(g.hints) && p < N
    ensures o in ResetHints(g).validOrientation[p] <==>
      && InRange(g.hints[p], o) && o < OrientationBits
      && forall i :: 0 <= i < g.hints[p].size ==>
           var c := Square(RunStart(g.hints[p], o), Step(o), i);
           OnBoard(c) && (c == g.hints[p].at || !IsAnchor(g.hints, c))
  {
    var g1 := g.(fixed := ResetHints(g).fixed);
    assert forall c :: 0 <= c < Area ==> (FixedAt(g1, c) == {} <==> !IsAnchor(g.hints, c));
  }

  /** With distinct anchors each anchor is fixed to its own piece. */
  lemma ResetHintsDistinct(g: Game)
    requires Shaped(g) && AnchorsInRange(g.hints)
    requires forall i, j :: 0 <= i < j < N ==> g.hints[i].at != g.hints[j].at
    ensures forall i :: 0 <= i < N ==> ResetHints(g).fixed[g.hints[i].at] == PieceMask(i)
  {
  }

  /** Every orientation reopened by reset_hints passes through its anchor and has all its
      squares on the board. */
  lemma ResetHintsGeometry(g: Game, p: nat, o: nat)
    requires Shaped(g) && AnchorsInRange(g.hints) && p < N
    requires o in ResetHints(g).validOrientation[p]
    ensures Placed(g.hints[p], o)
    ensures OnRun(g.hints[p], o, g.hints[p].at)
  {
    AnchorOnRun(g.hints[p], o);
  }
}

=== FILE: lines.dfy ===
/** The browser client's Line (www/stc/game.js:5-210): a hint cell (the anchor) and two
    handles; the drawn segment runs from one handle through the anchor to the other.
    Only the (row, col) arithmetic is modelled; element styling is not. */
module Lines {
  import opened Optional

  /** A [row, col] pair. */
  datatype Pos = Pos(r: int, c: int)

  /** targetLength is the hint digit, length the cached segment length, (r, c) the anchor.
      The transposed flag only affects styling and is not kept. */
  datatype Line = Line(targetLength: int, length: int, r: int, c: int, h1: Pos, h2: Pos,
                       dragLeftStartSquare: bool)

  function Anchor(l: Line): Pos {
    Pos(l.r, l.c)
  }

  function Abs(x: int): nat {
    if x < 0 then -x else x
  }

  function Min(a: int, b: int): int {
    if a < b then a else b
  }

  function Max(a: int, b: int): int {
    if a < b then b else a
  }

  /** Chebyshev distance: the number of king moves from p to q. */
  function Dist(p: Pos, q: Pos): nat {
    Max(Abs(p.r - q.r), Abs(p.c - q.c))
  }

  /** Both handles lie in the anchor's row, or both in its column. */
  predicate Straight(a: Pos, h1: Pos, h2: Pos) {
    (h1.r == a.r && h2.r == a.r) || (h1.c == a.c && h2.c == a.c)
  }

  /** The segment length setLineStyle computes: 1 + max(|dr|, |dc|). */
  function LineLength(h1: Pos, h2: Pos): (n: int)
    ensures n == 1 + Dist(h1, h2)
  {
    Max(1 + Abs(h1.r - h2.r), 1 + Abs(h1.c - h2.c))
  }

  /** The length is at least 1 and does not depend on the order of the handles. */
  lemma LineLengthSymmetric(h1: Pos, h2: Pos)
    ensures LineLength(h1, h2) == LineLength(h2, h1) >= 1
  {
  }

  /** The constructor: both handles on the anchor; setStyle then sets length to 1. */
  function NewLine(targetLength: int, r: int, c: int): (l: Line)
    ensures Anchor(l) == Pos(r, c)
    ensures Anchor(l) == l.h1 == l.h2 && l.length == LineLength(l.h1, l.h2) == 1
    ensures l.targetLength == targetLength && !l.dragLeftStartSquare
  {
    Line(targetLength, 1, r, c, Pos(r, c), Pos(r, c), false)
  }

  /** findHandles(r, c): [h1, h2] when (r, c) is h1, else [h2, h1] when it is h2, else
      undefined. */
  function FindHandles(l: Line, r: int, c: int): (res: Option<(Pos, Pos)>)
    ensures res.Some? <==> Pos(r, c) == l.h1 || Pos(r, c) == l.h2
    ensures res.Some? ==> res.value.0 == Pos(r, c) && {res.value.0, res.value.1} == {l.h1, l.h2}
    ensures Pos(r, c) == l.h1 ==> res == Some((l.h1, l.h2))
  {
    if r == l.h1.r && c == l.h1.c then Some((l.h1, l.h2))
    else if r == l.h2.r && c == l.h2.c then Some((l.h2, l.h1))
    else None
  }

  /** Cell p lies in the closed box spanned by corners a and b. */
  predicate InBox(p: Pos, a: Pos, b: Pos) {
    Min(a.r, b.r) <= p.r <= Max(a.r, b.r) && Min(a.c, b.c) <= p.c <= Max(a.c, b.c)
  }

  /** The overlap test of intersects: the closed row ranges overlap and the closed column
      ranges overlap, each written as "one minimum lies inside the other range". */
  function BoxesIntersect(a1: Pos, a2: Pos, b1: Pos, b2: Pos): (res: bool)
    ensures res <==> exists p :: InBox(p, a1, a2) && InBox(p, b1, b2)
  {
    var aMinR := Min(a1.r, a2.r);
    var aMaxR := Max(a1.r, a2.r);
    var aMinC := Min(a1.c, a2.c);
    var aMaxC := Max(a1.c, a2.c);
    var bMinR := Min(b1.r, b2.r);
    var bMaxR := Max(b1.r, b2.r);
    var bMinC := Min(b1.c, b2.c);
    var bMaxC := Max(b1.c, b2.c);
    var rIntersect := (aMinR >= bMinR && aMinR <= bMaxR) || (bMinR >= aMinR && bMinR <= aMaxR);
    var cIntersect := (aMinC >= bMinC && aMinC <= bMaxC) || (bMinC >= aMinC && bMinC <= aMaxC);
    var res := rIntersect && cIntersect;
    var corner := Pos(Max(aMinR, bMinR), Max(aMinC, bMinC));
    assert res ==> (InBox(corner, a1, a2) && InBox(corner, b1, b2));
    res
  }

  /** intersects(h1, h2): the line's own box against the box of h1 and h2. */
  function Intersects(l: Line, h1: Pos, h2: Pos): bool {
    BoxesIntersect(l.h1, l.h2, h1, h2)
  }

  /** The overlap test does not depend on which box is the line's. */
  lemma IntersectsSymmetric(a1: Pos, a2: Pos, b1: Pos, b2: Pos)
    ensures BoxesIntersect(a1, a2, b1, b2) == BoxesIntersect(b1, b2, a1, a2)
  {
    if BoxesIntersect(a1, a2, b1, b2) {
      var p :| InBox(p, a1, a2) && InBox(p, b1, b2);
      assert InBox(p, b1, b2) && InBox(p, a1, a2);
    }
  }

  /** moveTowardCenter(handle) for anchor a: each coordinate steps once toward a's. */
  function MoveTowardCenter(a: Pos, h: Pos): (m: Pos)
    ensures Abs(m.r - h.r) <= 1 && Abs(m.c - h.c) <= 1
    ensures Min(h.r, a.r) <= m.r <= Max(h.r, a.r) && Min(h.c, a.c) <= m.c <= Max(h.c, a.c)
    ensures m == h <==> h == a
    ensures h != a ==> Dist(a, m) + 1 == Dist(a, h)
    ensures h.r != a.r ==> Abs(m.r - h.r) == 1
    ensures h.r == a.r ==> m.r == h.r
    ensures h.c != a.c ==> Abs(m.c - h.c) == 1
    ensures h.c == a.c ==> m.c == h.c
  {
    var r := if h.r < a.r then h.r + 1 else h.r;
    var r := if r > a.r then r - 1 else r;
    var c := if h.c < a.c then h.c + 1 else h.c;
    var c := if c > a.c then c - 1 else c;
    Pos(r, c)
  }

  /** A handle in the anchor's row (column) stays there when moved. */
  lemma MoveKeepsStraight(a: Pos, h1: Pos, h2: Pos)
    requires Straight(a, h1, h2)
    ensures Straight(a, MoveTowardCenter(a, h1), h2)
    ensures Straight(a, h1, MoveTowardCenter(a, h2))
  {
  }

  /** covered(handle): push the handle, step toward the anchor, stop on reaching it. */
  function Covered(a: Pos, h: Pos): (cells: seq<Pos>)
    decreases Dist(a, h)
    ensures |cells| == Max(1, Dist(a, h))
    ensures cells[0] == h
    ensures a in cells <==> h == a
    ensures forall i :: 0 <= i < |cells| ==> InBox(cells[i], h, a)
    ensures forall i :: 0 < i < |cells| ==> cells[i] == MoveTowardCenter(a, cells[i - 1])
  {
    var m := MoveTowardCenter(a, h);
    if m == a then [h]
    else
      var rest := Covered(a, m);
      assert forall i :: 0 <= i < |rest| ==> InBox(rest[i], h, a);
      [h] + rest
  }

  /** For a handle in the anchor's row, covered lists exactly the cells from the handle up
      to, not including, the anchor. */
  lemma {:induction false} CoveredInRow(a: Pos, h: Pos)
    requires h.r == a.r && h != a
    decreases Dist(a, h)
    ensures forall p :: p in Covered(a, h) <==>
      p.r == a.r && Min(h.c, a.c) <= p.c <= Max(h.c, a.c) && p.c != a.c
  {
    var m := MoveTowardCenter(a, h);
    if m != a {
      CoveredInRow(a, m);
    }
  }

  /** The column counterpart of CoveredInRow. */
  lemma {:induction false} CoveredInColumn(a: Pos, h: Pos)
    requires h.c == a.c && h != a
    decreases Dist(a, h)
    ensures forall p :: p in Covered(a, h) <==>
      p.c == a.c && Min(h.r, a.r) <= p.r <= Max(h.r, a.r) && p.r != a.r
  {
    var m := MoveTowardCenter(a, h);
    if m != a {
      CoveredInColumn(a, m);
    }
  }

  /** covered(): the cells listed for h1 followed by those for h2. */
  function LineCovered(l: Line): seq<Pos> {
    Covered(Anchor(l), l.h1) + Covered(Anchor(l), l.h2)
  }

  /** setLineStyle's length update; the match and too-long classes follow from it. */
  function SetLineStyle(l: Line, h1: Pos, h2: Pos): (res: Line)
    ensures res == l.(length := res.length)
    ensures res.length == 1 + Dist(h1, h2)
  {
    l.(length := LineLength(h1, h2))
  }

  /** The "line-match" class: the drawn length equals the hint. */
  predicate Match(l: Line) {
    l.length == l.targetLength
  }

  /** The "line-toolong" class. */
  predicate TooLong(l: Line) {
    l.length > l.targetLength
  }

  /** The style classes do not depend on the order the handles are given in. */
  lemma SetLineStyleOrderFree(l: Line, h1: Pos, h2: Pos)
    ensures SetLineStyle(l, h1, h2) == SetLineStyle(l, h2, h1)
    ensures Match(SetLineStyle(l, h1, h2)) <==> 1 + Dist(h1, h2) == l.targetLength
    ensures TooLong(SetLineStyle(l, h1, h2)) <==> 1 + Dist(h1, h2) > l.targetLength
  {
  }

  /** Handles on opposite diagonals: one is below-left of the other. */
  predicate Crossed(h1: Pos, h2: Pos) {
    (h1.r > h2.r && h1.c < h2.c) || (h1.r < h2.r && h1.c > h2.c)
  }

  /** setLineStyle as written: it swaps the handles while h1 is below or right of h2, with
      fuel standing for the call stack. None means the fuel ran out. */
  function SetLineStyleAsWritten(h1: Pos, h2: Pos, fuel: nat): Option<int>
    decreases fuel
  {
    if fuel == 0 then None
    else if h1.r > h2.r || h1.c > h2.c then SetLineStyleAsWritten(h2, h1, fuel - 1)
    else Some(Max(1 + Abs(h1.r - h2.r), 1 + Abs(h1.c - h2.c)))
  }

  /** For crossed handles, such as (1, 0) and (0, 1), each swap leaves a pair that must be
      swapped again: setLineStyle never returns, whatever the stack depth. */
  lemma {:induction false} SetLineStyleDiverges(h1: Pos, h2: Pos, fuel: nat)
    requires Crossed(h1, h2)
    decreases fuel
    ensures SetLineStyleAsWritten(h1, h2, fuel) == None
  {
    if fuel > 0 {
      SetLineStyleDiverges(h2, h1, fuel - 1);
    }
  }

  lemma SetLineStyleDivergesExample(fuel: nat)
    ensures SetLineStyleAsWritten(Pos(1, 0), Pos(0, 1), fuel) == None
  {
    SetLineStyleDiverges(Pos(1, 0), Pos(0, 1), fuel);
  }

  /** For handles that are not crossed, two frames suffice and the result is LineLength. */
  lemma SetLineStyleAgrees(h1: Pos, h2: Pos, fuel: nat)
    requires !Crossed(h1, h2) && fuel >= 2
    ensures SetLineStyleAsWritten(h1, h2, fuel) == Some(LineLength(h1, h2))
  {
  }

  /** Straight handles are never crossed, so from the drag handlers, which keep lines
      straight, setLineStyle returns. */
  lemma StraightNotCrossed(a: Pos, h1: Pos, h2: Pos)
    requires Straight(a, h1, h2)
    ensures !Crossed(h1, h2)
  {
  }

  /** reset(): both handles back on the anchor, and setStyle recomputes the length. */
  function Reset(l: Line): (res: Line)
    ensures res.h1 == res.h2 == Anchor(res) == Anchor(l)
    ensures res.length == 1
    ensures res.targetLength == l.targetLength && res.dragLeftStartSquare == l.dragLeftStartSquare
    ensures LineCovered(res) == [Anchor(l), Anchor(l)]
  {
    var a := Anchor(l);
    SetLineStyle(l.(h1 := a, h2 := a), a, a)
  }

  /** Cell p and the other handle q lie on the same side of anchor a, in its row or its
      column: a drag there pulls the line back to the anchor. */
  predicate SameSide(a: Pos, p: Pos, q: Pos) {
    (p.r < a.r && q.r < a.r) || (p.r > a.r && q.r > a.r)
    || (p.c < a.c && q.c < a.c) || (p.c > a.c && q.c > a.c)
  }

  /** Dragging from the anchor that has not been left yet. */
  predicate FromFreshAnchor(l: Line, fromR: int, fromC: int) {
    fromR == l.r && fromC == l.c && !l.dragLeftStartSquare
  }

  /** The handle arithmetic of findEffectiveHandles, before the loops that shrink the
      result away from other lines. Dragging from the anchor that has not been left yet
      collapses the line; otherwise the drag must start on a handle, or on the anchor along
      a row or column, and end in the anchor's row or column. */
  function FindEffectiveHandles(l: Line, fromR: int, fromC: int, r: int, c: int): (res: Option<(Pos, Pos)>)
    // The fresh anchor: [[fromR, fromC], [fromR, fromC]].
    ensures FromFreshAnchor(l, fromR, fromC) ==> res == Some((Anchor(l), Anchor(l)))
    // Not on a handle: only a row or column drag from the anchor, giving [[r, c], [fromR, fromC]].
    ensures !FromFreshAnchor(l, fromR, fromC) && FindHandles(l, fromR, fromC).None? ==>
      (res.Some? <==> Pos(fromR, fromC) == Anchor(l) && (fromR == r || fromC == c))
    ensures !FromFreshAnchor(l, fromR, fromC) && FindHandles(l, fromR, fromC).None? && res.Some? ==>
      res.value == (Pos(r, c), Anchor(l))
    // On a handle: the drag must end in the anchor's row or column.
    ensures !FromFreshAnchor(l, fromR, fromC) && FindHandles(l, fromR, fromC).Some? ==>
      (res.Some? <==> r == l.r || c == l.c)
    ensures !FromFreshAnchor(l, fromR, fromC) && FindHandles(l, fromR, fromC).Some? && res.Some? ==>
      var other := FindHandles(l, fromR, fromC).value.1;
      // Off the other handle's row and column: [[r, c], [this.r, this.c]].
      && (r != other.r && c != other.c ==> res.value == (Pos(r, c), Anchor(l)))
      // Past the anchor on the other handle's side: [[this.r, this.c], other].
      && (!(r != other.r && c != other.c) && SameSide(Anchor(l), Pos(r, c), other) ==>
            res.value == (Anchor(l), other))
      // Otherwise: [[r, c], other].
      && (!(r != other.r && c != other.c) && !SameSide(Anchor(l), Pos(r, c), other) ==>
            res.value == (Pos(r, c), other))
    ensures FindHandles(l, fromR, fromC).None? && Pos(fromR, fromC) != Anchor(l) ==> res.None?
    ensures res.Some? && Straight(Anchor(l), l.h1, l.h2) ==> Straight(Anchor(l), res.value.0, res.value.1)
  {
    var a := Anchor(l);
    if FromFreshAnchor(l, fromR, fromC) then Some((Pos(fromR, fromC), Pos(fromR, fromC)))
    else
      match FindHandles(l, fromR, fromC)
      case None =>
        if fromR != r && fromC != c then None
        else if fromR == l.r && fromC == l.c then Some((Pos(r, c), Pos(fromR, fromC)))
        else None
      case Some((handle, other)) =>
        if r != l.r && c != l.c then None
        else if r != other.r && c != other.c then Some((Pos(r, c), a))
        else if SameSide(a, Pos(r, c), other) then Some((a, other))
        else Some((Pos(r, c), other))
  }
}

=== FILE: loops.dfy ===
/** The loops of main over any state and any round. The solving loops (src/main.cc:444-454,
    457-467) run up to n rounds and stop right after the first one that reports no update;
    the generation loop (src/main.cc:423-432) is a chain of passes, of which only the last
    may get stuck. */
module Loops {
  /** The state after k rounds of a loop that never stops early. */
  function Iterate<T>(round: T -> (T, bool), x: T, k: nat): T
    decreases k
  {
    if k == 0 then x else round(Iterate(round, x, k - 1)).0
  }

  /** Round k (counted from 0) of a loop started from x reports an update. */
  predicate Productive<T>(round: T -> (T, bool), x: T, k: nat) {
    round(Iterate(round, x, k)).1
  }

  /** The first round numbered from i up to n - 1 that reports no update, or n when each
      of them reports one. */
  function QuietFrom<T>(round: T -> (T, bool), x: T, i: nat, n: nat): (q: nat)
    requires i <= n
    decreases n - i
    ensures i <= q <= n
  {
    if i == n then n
    else if !Productive(round, x, i) then i
    else QuietFrom(round, x, i + 1, n)
  }

  /** The first of n rounds that reports no update, or n when every one reports one. */
  function FirstQuiet<T>(round: T -> (T, bool), x: T, n: nat): (q: nat)
    ensures q <= n
  {
    QuietFrom(round, x, 0, n)
  }

  /** QuietFrom is the least quiet round from i on. */
  lemma {:induction false} QuietFromMeans<T>(round: T -> (T, bool), x: T, i: nat, n: nat)
    requires i <= n
    decreases n - i
    ensures QuietFrom(round, x, i, n) < n ==> !Productive(round, x, QuietFrom(round, x, i, n))
    ensures forall k :: i <= k < QuietFrom(round, x, i, n) ==> Productive(round, x, k)
  {
    if i < n && Productive(round, x, i) {
      QuietFromMeans(round, x, i + 1, n);
    }
  }

  /** FirstQuiet is the one round q such that every earlier round reports an update and,
      unless q == n, round q reports none. */
  lemma FirstQuietIs<T>(round: T -> (T, bool), x: T, n: nat, q: nat)
    requires q <= n
    ensures FirstQuiet(round, x, n) == q <==>
      (forall k :: 0 <= k < q ==> Productive(round, x, k)) && (q < n ==> !Productive(round, x, q))
  {
    var f := FirstQuiet(round, x, n);
    assert (forall k :: 0 <= k < q ==> Productive(round, x, k)) && f < q ==> Productive(round, x, f);
    QuietFromMeans(round, x, 0, n);
    assert q < f ==> Productive(round, x, q);
  }

  /** The count a solving loop records: the first round that reports no update, or 0 when
      every round reports one. */
  function QuietCount<T>(round: T -> (T, bool), x: T, n: nat): (c: nat)
    ensures n == 0 || c < n
  {
    if FirstQuiet(round, x, n) < n then FirstQuiet(round, x, n) else 0
  }

  /** How many rounds a solving loop runs: up to and including the first quiet round, or
      all n. */
  function RoundsRun<T>(round: T -> (T, bool), x: T, n: nat): (k: nat)
    ensures k <= n
  {
    if FirstQuiet(round, x, n) < n then FirstQuiet(round, x, n) + 1 else n
  }

  /** A solving loop of main: up to n rounds, stopping right after the first that reports no
      update. count is the number of that round, or 0 when every round reports an update;
      r is the state after the last round run. */
  method Solve<T>(round: T -> (T, bool), x: T, n: nat) returns (r: T, count: nat)
    ensures count == QuietCount(round, x, n)
    ensures r == Iterate(round, x, RoundsRun(round, x, n))
    ensures 0 < count ==> !Productive(round, x, count) && forall k :: 0 <= k < count ==> Productive(round, x, k)
    ensures count == 0 ==> !Productive(round, x, 0) || forall k :: 0 <= k < n ==> Productive(round, x, k)
  {
    r := x;
    var i: nat := 0;
    var quiet := false;
    while i < n && !quiet
      invariant i <= n
      invariant !quiet ==> r == Iterate(round, x, i) && QuietFrom(round, x, i, n) == FirstQuiet(round, x, n)
      invariant quiet ==> i < n && FirstQuiet(round, x, n) == i && r == Iterate(round, x, i + 1)
      decreases n - i, if quiet then 0 else 1
    {
      var step := round(r);
      r, quiet := step.0, !step.1;
      i := if quiet then i else i + 1;
    }
    count := if quiet then i else 0;
    QuietFromMeans(round, x, 0, n);
  }

  /** Whatever every round keeps, every loop keeps. */
  lemma {:induction false} IterateKeeps<T>(round: T -> (T, bool), keep: T -> bool, x: T, k: nat)
    requires keep(x)
    requires forall y :: keep(y) ==> keep(round(y).0)
    decreases k
    ensures keep(Iterate(round, x, k))
  {
    if k > 0 {
      IterateKeeps(round, keep, x, k - 1);
    }
  }

  /** x reaches y in k steps, each related to the next by step; only the last step may be
      stuck, and stuck says whether it was. */
  ghost predicate Runs<T(!new)>(step: (T, T, bool) -> bool, x: T, y: T, k: nat, stuck: bool)
    decreases k, 1
  {
    if k == 0 then y == x && !stuck else RunsFrom(step, x, y, k, stuck)
  }

  /** A run of k >= 1 steps: one step from x, the last one when k is 1, and otherwise a
      step that is not stuck and a run of k - 1 steps from where it leads. */
  ghost predicate RunsFrom<T(!new)>(step: (T, T, bool) -> bool, x: T, y: T, k: nat, stuck: bool)
    requires 1 <= k
    decreases k, 0
  {
    if k == 1 then step(x, y, stuck)
    else exists m :: step(x, m, false) && Runs(step, m, y, k - 1, stuck)
  }

  /** A run of one step is that step. */
  lemma RunsOne<T(!new)>(step: (T, T, bool) -> bool, x: T, y: T, stuck: bool)
    ensures Runs(step, x, y, 1, stuck) <==> step(x, y, stuck)
  {
  }

  /** A run that is not stuck extends by one more step at its end. */
  lemma {:induction false} RunsExtend<T(!new)>(step: (T, T, bool) -> bool, x: T, y: T, z: T, k: nat, stuck: bool)
    requires Runs(step, x, y, k, false) && step(y, z, stuck)
    decreases k
    ensures Runs(step, x, z, k + 1, stuck)
  {
    if k == 1 {
      assert step(x, y, false) && Runs(step, y, z, 1, stuck);
    } else if 1 < k {
      var m :| step(x, m, false) && Runs(step, m, y, k - 1, false);
      RunsExtend(step, m, y, z, k - 1, stuck);
      assert step(x, m, false) && Runs(step, m, z, k, stuck);
    }
  }
}

=== FILE: masks.dfy ===
/** The engine's bit masks (src/main.cc): a uint64 piece mask is modelled as the set of
    its set bit positions, so popcount is the set's cardinality. */
module Masks {

  type Mask = set<nat>

  /** Width of the uint64 masks. */
  const MaskBits: nat := 64

  /** Every set bit of m lies inside a uint64. */
  predicate InWord(m: Mask) {
    forall b :: b in m ==> b < MaskBits
  }

  /** piece_mask: the single bit of a piece. */
  function PieceMask(piece: nat): (m: Mask)
    requires piece < MaskBits
    ensures InWord(m) && |m| == 1 && piece in m
  {
    {piece}
  }

  /** mask_to_piece (__builtin_ctzl): the index of the lowest set bit. The builtin is
      undefined on 0, hence the requires. */
  function MaskToPiece(m: Mask): (piece: nat)
    requires m != {} && InWord(m)
    ensures piece in m
    ensures forall b :: b in m ==> piece <= b
  {
    LowestFrom(m, 0)
  }

  /** Scans bit positions upwards from i; every set bit is at i or above. */
  function LowestFrom(m: Mask, i: nat): (piece: nat)
    requires m != {} && InWord(m)
    requires forall b :: b in m ==> i <= b
    decreases MaskBits - i
    ensures piece in m
    ensures forall b :: b in m ==> piece <= b
  {
    if i in m then i
    else
      assert exists b :: b in m && i < b < MaskBits;
      LowestFrom(m, i + 1)
  }

  /** mask_to_piece inverts piece_mask. */
  lemma MaskRoundTrip(piece: nat)
    requires piece < MaskBits
    ensures MaskToPiece(PieceMask(piece)) == piece
  {
  }
}

=== FILE: optional.dfy ===
/** An optional value: a JavaScript undefined/null result, or a std::map lookup that may miss. */
module Optional {
  datatype Option<T> = None | Some(value: T)
}

=== FILE: possible.dfy ===
/** reset_possible, update_possible, update_dependent and find_dependent
    (src/main.cc:135-145, 226-250, 351-407): rebuild each cell's candidate pieces. */
module Possible {
  import opened Geometry
  import opened Masks
  import opened GameState

  /** Cell c is square j of the run for some j in [lo, hi). */
  predicate SquareIn(start: int, step: int, lo: int, hi: int, c: int) {
    exists j :: lo <= j < hi && Square(start, step, j) == c
  }

  /** The marking do_squares pass of update_possible: possible_[at] |= mask on every square
      from index i on. It only runs after a passing check, so every square is on the board. */
  function MarkSquares(s: seq<Mask>, start: int, step: int, n: int, i: nat, p: nat): (r: seq<Mask>)
    requires |s| == Area
    requires forall j :: i <= j < n ==> OnBoard(Square(start, step, j))
    decreases n - i
    ensures |r| == Area
    ensures forall c :: 0 <= c < Area ==> r[c] == if SquareIn(start, step, i, n, c) then s[c] + {p} else s[c]
  {
    if i >= n then s
    else
      var at := Square(start, step, i);
      assert OnBoard(at);
      var r := MarkSquares(s[at := s[at] + {p}], start, step, n, i + 1, p);
      assert forall c :: c != at ==> (SquareIn(start, step, i, n, c) <==> SquareIn(start, step, i + 1, n, c));
      r
  }

  /** An orientation update_possible accepts: its bit is set and it is Compatible. */
  predicate Live(g: Game, p: nat, o: nat)
    requires p < |g.hints| && p < |g.validOrientation| && p < MaskBits
  {
    Valid(g, p, o) && Compatible(g, p, o)
  }

  /** Some live orientation of p numbered lo or more covers cell c. */
  ghost predicate ReachesFrom(g: Game, p: nat, c: int, lo: nat)
    requires p < |g.hints| && p < |g.validOrientation| && p < MaskBits
  {
    exists o: nat :: lo <= o && Live(g, p, o) && OnRun(g.hints[p], o, c)
  }

  ghost predicate Reaches(g: Game, p: nat, c: int)
    requires p < |g.hints| && p < |g.validOrientation| && p < MaskBits
  {
    ReachesFrom(g, p, c, 0)
  }

  /** The marking pass covers exactly the squares of orientation o. */
  lemma SquaresOfRun(h: Hint, o: nat, c: int)
    ensures SquareIn(RunStart(h, o), Step(o), 0, h.size, c) <==> OnRun(h, o, c)
  {
  }

  /** update_possible(p), looping orientations upwards from o. */
  function UpdatePossibleFrom(g: Game, poss: seq<Mask>, p: nat, o: nat): (r: seq<Mask>)
    requires Shaped(g) && p < N && |poss| == Area
    decreases 2 * g.hints[p].size - o
    ensures |r| == Area
    ensures forall c :: 0 <= c < Area ==> r[c] == if ReachesFrom(g, p, c, o) then poss[c] + {p} else poss[c]
  {
    var h := g.hints[p];
    if o >= 2 * h.size then
      assert forall c :: !ReachesFrom(g, p, c, o);
      poss
    else
      var poss' := if o in g.validOrientation[p] && Compatible(g, p, o)
                   then MarkSquares(poss, RunStart(h, o), Step(o), h.size, 0, p)
                   else poss;
      var r := UpdatePossibleFrom(g, poss', p, o + 1);
      forall c | 0 <= c < Area
        ensures r[c] == if ReachesFrom(g, p, c, o) then poss[c] + {p} else poss[c]
      {
        SquaresOfRun(h, o, c);
        if ReachesFrom(g, p, c, o + 1) {
          var o' :| o + 1 <= o' && Live(g, p, o') && OnRun(h, o', c);
          assert ReachesFrom(g, p, c, o);
        }
        if ReachesFrom(g, p, c, o) && !ReachesFrom(g, p, c, o + 1) {
          var o' :| o <= o' && Live(g, p, o') && OnRun(h, o', c);
          assert o' == o;
        }
      }
      r
  }

  /** The piece loop of reset_possible, from piece p on. update_possible reads only
      valid_orientation_ and fixed_, so the pieces do not interfere. */
  function PiecesFrom(g: Game, poss: seq<Mask>, p: nat): (r: seq<Mask>)
    requires Shaped(g) && |poss| == Area && p <= N
    decreases N - p
    ensures |r| == Area
    ensures forall c, q :: 0 <= c < Area ==>
      (q in r[c] <==> q in poss[c] || (p <= q < N && Reaches(g, q, c)))
  {
    if p == N then poss
    else PiecesFrom(g, UpdatePossibleFrom(g, poss, p, 0), p + 1)
  }

  /** possible_ after the update_possible loop of reset_possible: piece q is a candidate for
      cell c exactly when a live orientation of q covers c. */
  function PossibleBase(g: Game): (r: seq<Mask>)
    requires Shaped(g)
    ensures |r| == Area
    ensures forall c, q :: 0 <= c < Area ==> (q in r[c] <==> 0 <= q < N && Reaches(g, q, c))
  {
    PiecesFrom(g, seq(Area, c => {}), 0)
  }

  /** The marking pass of find_dependent: set bit at of the cell bitset for every square. */
  function MarkCells(ret: set<int>, start: int, step: int, n: int, i: nat): (r: set<int>)
    decreases n - i
    ensures forall c :: c in r <==> c in ret || SquareIn(start, step, i, n, c)
  {
    if i >= n then ret
    else
      var r := MarkCells(ret + {Square(start, step, i)}, start, step, n, i + 1);
      assert forall c :: c != Square(start, step, i) ==>
        (SquareIn(start, step, i, n, c) <==> SquareIn(start, step, i + 1, n, c));
      r
  }

  /** Some live orientation of p numbered lo or more passes through both target and c. */
  ghost predicate LinksFrom(g: Game, p: nat, target: int, c: int, lo: nat)
    requires p < |g.hints| && p < |g.validOrientation| && p < MaskBits
  {
    exists o: nat :: lo <= o && Live(g, p, o) && OnRun(g.hints[p], o, target) && OnRun(g.hints[p], o, c)
  }

  /** find_dependent's orientation loop from o on. The check pass also notes whether the run
      overlaps target; when the check passes it has visited every square, so that note is
      exactly OnRun(target). */
  function FindDependentFrom(g: Game, p: nat, target: int, ret: set<int>, o: nat): (r: set<int>)
    requires Shaped(g) && p < N
    decreases 2 * g.hints[p].size - o
    ensures forall c :: c in r <==> c in ret || LinksFrom(g, p, target, c, o)
  {
    var h := g.hints[p];
    if o >= 2 * h.size then
      assert forall c :: !LinksFrom(g, p, target, c, o);
      ret
    else
      var ret' := if o in g.validOrientation[p] && Compatible(g, p, o) && OnRun(h, o, target)
                  then MarkCells(ret, RunStart(h, o), Step(o), h.size, 0)
                  else ret;
      var r := FindDependentFrom(g, p, target, ret', o + 1);
      forall c
        ensures c in r <==> c in ret || LinksFrom(g, p, target, c, o)
      {
        SquaresOfRun(h, o, c);
        if LinksFrom(g, p, target, c, o + 1) {
          var o' :| o + 1 <= o' && Live(g, p, o') && OnRun(h, o', target) && OnRun(h, o', c);
          assert LinksFrom(g, p, target, c, o);
        }
        if LinksFrom(g, p, target, c, o) && !LinksFrom(g, p, target, c, o + 1) {
          var o' :| o <= o' && Live(g, p, o') && OnRun(h, o', target) && OnRun(h, o', c);
          assert o' == o;
        }
      }
      r
  }

  /** find_dependent(piece, target): the UNION of the squares of every live orientation of
      the piece that passes through target. */
  function FindDependent(g: Game, p: nat, target: int): (r: set<int>)
    requires Shaped(g) && p < N
    ensures forall c :: c in r <==>
      exists o: nat :: Live(g, p, o) && OnRun(g.hints[p], o, target) && OnRun(g.hints[p], o, c)
    ensures forall c :: c in r ==> OnBoard(c)
  {
    var r := FindDependentFrom(g, p, target, {}, 0);
    forall c | c in r
      ensures OnBoard(c)
    {
      var o: nat :| Live(g, p, o) && OnRun(g.hints[p], o, target) && OnRun(g.hints[p], o, c);
      var h := g.hints[p];
      var i :| 0 <= i < h.size && Square(RunStart(h, o), Step(o), i) == c;
    }
    r
  }

  /** Every cell from c0 on: DepMask's dep.set() when c0 is 0. */
  function AllCells(c0: nat): (r: set<int>)
    decreases Area - c0
    ensures forall c :: c in r <==> c0 <= c < Area
  {
    if c0 >= Area then {} else {c0} + AllCells(c0 + 1)
  }

  /** Cell c is in find_dependent(q, at) for every candidate q numbered p or more. */
  ghost predicate InAllDependent(g: Game, cand: Mask, at: int, p: nat, c: int)
    requires Shaped(g)
  {
    forall q :: p <= q < N && q in cand ==> c in FindDependent(g, q, at)
  }

  lemma InAllDependentStep(g: Game, cand: Mask, at: int, p: nat, c: int)
    requires Shaped(g) && p < N
    ensures InAllDependent(g, cand, at, p, c) <==>
      (p in cand ==> c in FindDependent(g, p, at)) && InAllDependent(g, cand, at, p + 1, c)
  {
  }

  /** The piece loop of update_dependent: dep &= find_dependent(piece, at) for every
      candidate piece numbered p or more. */
  function DepIntersection(g: Game, cand: Mask, at: int, p: nat, dep: set<int>): (r: set<int>)
    requires Shaped(g) && p <= N
    decreases N - p
    ensures forall c :: c in r <==> c in dep && InAllDependent(g, cand, at, p, c)
  {
    if p == N then dep
    else
      var r := if p in cand then DepIntersection(g, cand, at, p + 1, dep * FindDependent(g, p, at))
               else DepIntersection(g, cand, at, p + 1, dep);
      forall c
        ensures c in r <==> c in dep && InAllDependent(g, cand, at, p, c)
      {
        InAllDependentStep(g, cand, at, p, c);
      }
      r
  }

  /** The cells update_dependent narrows together with at: dep members, other than at,
      numbered from lo up to (and including) hi, and below N, the loop bound of
      src/main.cc:365. */
  predicate Partner(dep: set<int>, at: int, lo: int, hi: int, t: int) {
    lo <= t <= hi && t < N && t in dep && t != at
  }

  /** Piece q survives in possible_[at] and in every partner numbered lo to hi. */
  ghost predicate RunningMeet(poss: seq<Mask>, at: int, dep: set<int>, lo: nat, hi: int, q: nat)
    requires |poss| == Area && 0 <= at < Area
  {
    q in poss[at] && forall v :: Partner(dep, at, lo, hi, v) ==> q in poss[v]
  }

  /** The target loop of update_dependent from target t on: whenever possible_[at] and
      possible_[target] differ both become their intersection. Hence possible_[at] ends as
      the running intersection with every partner, and each partner ends as the running
      intersection up to itself. */
  function NarrowTargets(poss: seq<Mask>, at: int, dep: set<int>, t: nat): (r: seq<Mask>)
    requires |poss| == Area && 0 <= at < Area && t <= N
    decreases N - t
    ensures |r| == Area
    ensures forall q :: q in r[at] <==> RunningMeet(poss, at, dep, t, N, q)
    ensures forall u, q :: Partner(dep, at, t, N, u) ==>
      (q in r[u] <==> RunningMeet(poss, at, dep, t, u, q))
    ensures forall c :: 0 <= c < Area && c != at && !Partner(dep, at, t, N, c) ==> r[c] == poss[c]
    ensures forall c :: 0 <= c < Area ==> r[c] <= poss[c]
    ensures forall c :: 0 <= c < Area && c != at && N <= c ==> r[c] == poss[c]
  {
    if t == N then poss
    else
      var poss' := if t in dep && t != at && poss[at] != poss[t]
                   then poss[at := poss[at] * poss[t]][t := poss[at] * poss[t]]
                   else poss;
      var r := NarrowTargets(poss', at, dep, t + 1);
      NarrowStep(poss, poss', r, at, dep, t);
      r
  }

  /** One target of the narrowing loop: what holds from t + 1 on for the updated array
      poss' gives what holds from t on for poss. */
  lemma NarrowStep(poss: seq<Mask>, poss': seq<Mask>, r: seq<Mask>, at: int, dep: set<int>, t: nat)
    requires |poss| == Area && 0 <= at < Area && t < N
    requires poss' == if t in dep && t != at && poss[at] != poss[t]
                      then poss[at := poss[at] * poss[t]][t := poss[at] * poss[t]]
                      else poss
    requires |r| == Area
    requires forall q :: q in r[at] <==> RunningMeet(poss', at, dep, t + 1, N, q)
    requires forall u, q :: Partner(dep, at, t + 1, N, u) ==>
      (q in r[u] <==> RunningMeet(poss', at, dep, t + 1, u, q))
    requires forall c :: 0 <= c < Area && c != at && !Partner(dep, at, t + 1, N, c) ==> r[c] == poss'[c]
    ensures forall q :: q in r[at] <==> RunningMeet(poss, at, dep, t, N, q)
    ensures forall u, q :: Partner(dep, at, t, N, u) ==>
      (q in r[u] <==> RunningMeet(poss, at, dep, t, u, q))
    ensures forall c :: 0 <= c < Area && c != at && !Partner(dep, at, t, N, c) ==> r[c] == poss[c]
  {
    var here := Partner(dep, at, t, N, t);
    var both := poss[at] * poss[t];
    assert here ==> poss'[at] == both && poss'[t] == both;
    assert !here ==> poss'[at] == poss[at];
    assert forall v :: 0 <= v < Area && v != at && v != t ==> poss'[v] == poss[v];
    assert forall u :: Partner(dep, at, t, N, u) <==> (u == t && here) || Partner(dep, at, t + 1, N, u);
    forall q
      ensures q in r[at] <==> RunningMeet(poss, at, dep, t, N, q)
    {
      assert q in poss'[at] <==> q in poss[at] && (here ==> q in poss[t]);
    }
    forall u, q | Partner(dep, at, t, N, u)
      ensures q in r[u] <==> RunningMeet(poss, at, dep, t, u, q)
    {
      if u == t {
        assert !Partner(dep, at, t + 1, N, t);
        assert r[t] == both;
        assert forall v :: Partner(dep, at, t, u, v) <==> v == t;
      } else {
        assert Partner(dep, at, t + 1, N, u);
        assert q in poss'[at] <==> q in poss[at] && (here ==> q in poss[t]);
        assert forall v :: Partner(dep, at, t, u, v) <==> (v == t && here) || Partner(dep, at, t + 1, u, v);
      }
    }
  }

  /** One iteration of update_dependent's cell loop. A fixed cell, or one with at most one
      candidate at the moment the loop reaches it, is skipped. Otherwise dep is the
      intersection of the candidates' dependent sets and, when it has more than one cell,
      the target loop narrows at and its partners. */
  function DependentStep(g: Game, poss: seq<Mask>, at: nat): (r: seq<Mask>)
    requires Shaped(g) && |poss| == Area && at < Area
    ensures |r| == Area
    ensures forall c :: 0 <= c < Area ==> r[c] <= poss[c]
    ensures forall c :: 0 <= c < Area && c != at && N <= c ==> r[c] == poss[c]
    ensures g.fixed[at] != {} || |poss[at]| <= 1 ==> r == poss
    ensures g.fixed[at] == {} && |poss[at]| > 1 ==>
      var dep := DepIntersection(g, poss[at], at, 0, AllCells(0));
      && (|dep| <= 1 ==> r == poss)
      && (|dep| > 1 ==>
        && (forall q :: q in r[at] <==> RunningMeet(poss, at, dep, 0, N, q))
        && (forall u, q :: Partner(dep, at, 0, N, u) ==> (q in r[u] <==> RunningMeet(poss, at, dep, 0, u, q)))
        && (forall c :: 0 <= c < Area && c != at && !Partner(dep, at, 0, N, c) ==> r[c] == poss[c]))
  {
    if g.fixed[at] != {} || |poss[at]| <= 1 then poss
    else
      var dep := DepIntersection(g, poss[at], at, 0, AllCells(0));
      if |dep| > 1 then NarrowTargets(poss, at, dep, 0) else poss
  }

  /** The cell loop of update_dependent from cell at on. */
  function DependentFrom(g: Game, poss: seq<Mask>, at: nat): (r: seq<Mask>)
    requires Shaped(g) && |poss| == Area
    decreases Area - at
    ensures |r| == Area
    ensures forall c :: 0 <= c < Area ==> r[c] <= poss[c]
    ensures forall c :: at <= c < Area && N <= c && g.fixed[c] != {} ==> r[c] == poss[c]
    ensures forall c :: 0 <= c < Area && c < at && N <= c ==> r[c] == poss[c]
  {
    if at >= Area then poss
    else DependentFrom(g, DependentStep(g, poss, at), at + 1)
  }

  /** update_dependent: only ever removes candidates, and never touches a fixed cell that
      lies beyond the first N cells. */
  function UpdateDependent(g: Game, poss: seq<Mask>): (r: seq<Mask>)
    requires Shaped(g) && |poss| == Area
    ensures |r| == Area
    ensures forall c :: 0 <= c < Area ==> r[c] <= poss[c]
    ensures forall c :: N <= c < Area && g.fixed[c] != {} ==> r[c] == poss[c]
  {
    DependentFrom(g, poss, 0)
  }

  /** What reset_possible reads: hints_, valid_orientation_ and fixed_, with possible_
      zeroed as its first loop does. */
  function View(g: Game): (v: Game)
    requires Shaped(g)
    ensures Shaped(v)
  {
    Game(g.hints, g.validOrientation, seq(Area, c => {}), seq(Area, c => {}), g.fixed, seq(Area, c => false), g.dep)
  }

  /** reset_possible: zero possible_, run update_possible for every piece, then
      update_dependent when the dep_ option is on. */
  function ResetPossible(g: Game): (r: Game)
    requires Shaped(g)
    ensures Shaped(r)
    ensures r == g.(possible := r.possible)
  {
    var v := View(g);
    var base := PossibleBase(v);
    g.(possible := if g.dep then UpdateDependent(v, base) else base)
  }

  /** A piece is a candidate of a cell after reset_possible only if some still-valid
      orientation of it reaches the cell through unfixed squares; without dependency
      analysis, exactly then. */
  lemma ResetPossibleMeans(g: Game)
    requires Shaped(g)
    ensures forall c, q :: 0 <= c < Area && q in ResetPossible(g).possible[c] ==> 0 <= q < N && Reaches(g, q, c)
    ensures !g.dep ==> forall c, q :: 0 <= c < Area ==> (q in ResetPossible(g).possible[c] <==> 0 <= q < N && Reaches(g, q, c))
  {
    var v := View(g);
    ReachesIgnoresPossible(g, v);
  }

  /** Reaches reads hints_, valid_orientation_ and fixed_ only. */
  lemma ReachesIgnoresPossible(g: Game, g': Game)
    requires Shaped(g) && Shaped(g')
    requires g'.hints == g.hints && g'.validOrientation == g.validOrientation && g'.fixed == g.fixed
    ensures forall p, c :: 0 <= p < N ==> (Reaches(g', p, c) <==> Reaches(g, p, c))
  {
    forall p, o: nat | 0 <= p < N
      ensures Compatible(g', p, o) <==> Compatible(g, p, o)
    {
      CompatibleMeans(g, p, o);
      CompatibleMeans(g', p, o);
    }
  }

  /** Calling reset_possible twice without an intervening change gives the same possible_. */
  lemma ResetPossibleIdempotent(g: Game)
    requires Shaped(g)
    ensures ResetPossible(ResetPossible(g)) == ResetPossible(g)
  {
  }

  /** reset_possible is a function of hints_, fixed_, valid_orientation_ and dep_ alone. */
  lemma ResetPossibleDependsOnlyOn(g: Game, g': Game)
    requires Shaped(g) && Shaped(g')
    requires g'.hints == g.hints && g'.validOrientation == g.validOrientation
    requires g'.fixed == g.fixed && g'.dep == g.dep
    ensures ResetPossible(g').possible == ResetPossible(g).possible
  {
  }
}

=== FILE: render.dfy ===
/** print_puzzle (src/main.cc:67-90) as a string builder: one quoted line per board row
    holding, for every non-border cell, the hint length, a dot for a forced cell, or a
    blank. */
module Render {
  import opened Geometry
  import opened GameState
  import opened Hints
  import opened Decimal
  import opened Optional

  /** hints[hint.first] = hint.second over hints_ in order: the map keeps the length of the
      last hint anchored at the cell. */
  function HintAt(hints: seq<Hint>, at: int): (r: Option<int>)
    decreases |hints|
    ensures r.Some? <==> IsAnchor(hints, at)
    ensures r.Some? ==> exists j :: 0 <= j < |hints| && hints[j].at == at && LastAt(hints, j) && r.value == hints[j].size
  {
    if |hints| == 0 then None
    else
      var last := |hints| - 1;
      if hints[last].at == at then Some(hints[last].size)
      else
        var front := hints[..last];
        var r := HintAt(front, at);
        assert IsAnchor(hints, at) ==> IsAnchor(front, at) by {
          if IsAnchor(hints, at) {
            var j :| 0 <= j < |hints| && hints[j].at == at;
            assert front[j].at == at;
          }
        }
        assert r.Some? ==> exists j :: 0 <= j < |hints| && hints[j].at == at && LastAt(hints, j) && r.value == hints[j].size by {
          if r.Some? {
            var j :| 0 <= j < |front| && front[j].at == at && LastAt(front, j) && r.value == front[j].size;
            assert LastAt(hints, j);
          }
        }
        r
  }

  /** What one non-border cell prints. */
  function CellText(hints: seq<Hint>, forced: seq<bool>, at: int): string {
    match HintAt(hints, at)
    case Some(n) => IntToString(n)
    case None => if 0 <= at < |forced| && forced[at] then "." else " "
  }

  /** The cells of row r from column c on, border cells printing nothing and every other
      cell at printing text(at). The border test border_[r*W + c] is written as c == 0,
      which Geometry.CellOf shows equivalent. */
  function RowCells(text: int -> string, r: int, c: nat): string
    requires c <= W
    decreases W - c
  {
    if c == W then ""
    else (if c == 0 then "" else text(r * W + c)) + RowCells(text, r, c + 1)
  }

  /** What print_puzzle prints for each cell, given hints_ and forced_. */
  function Printer(hints: seq<Hint>, forced: seq<bool>): int -> string {
    at => CellText(hints, forced, at)
  }

  /** The row string of row r: what print_puzzle prints between the quotes. */
  function RowString(g: Game, r: nat): string {
    RowCells(Printer(g.hints, g.forced), r, 0)
  }

  /** The rows from row r on, each wrapped as a quoted string and a comma. */
  function RowsFrom(hints: seq<Hint>, forced: seq<bool>, r: nat): string
    requires r <= H
    decreases H - r
  {
    if r == H then ""
    else "\"" + RowCells(Printer(hints, forced), r, 0) + "\",\n" + RowsFrom(hints, forced, r + 1)
  }

  /** print_puzzle: it reads hints_ and forced_ only. */
  function PrintPuzzle(g: Game): string {
    RowsFrom(g.hints, g.forced, 0)
  }

  /** The character a cell shows when its hint, if any, is a single digit. */
  function CellChar(hints: seq<Hint>, forced: seq<bool>, at: int): char {
    match HintAt(hints, at)
    case Some(n) => if 0 <= n < 10 then DigitChar(n) else '?'
    case None => if 0 <= at < |forced| && forced[at] then '.' else ' '
  }

  /** Every hint length is one decimal digit, as randomize's 2..5 are. */
  predicate SingleDigitSizes(hints: seq<Hint>) {
    forall j :: 0 <= j < |hints| ==> 0 <= hints[j].size < 10
  }

  /** A cell with a single-digit hint, or none, prints one character. */
  lemma CellTextChar(hints: seq<Hint>, forced: seq<bool>, at: int)
    requires SingleDigitSizes(hints)
    ensures CellText(hints, forced, at) == [CellChar(hints, forced, at)]
  {
    var h := HintAt(hints, at);
    if h.Some? {
      var j :| 0 <= j < |hints| && hints[j].at == at && LastAt(hints, j) && h.value == hints[j].size;
    }
  }

  /** When every cell prints one character, row cells from column c >= 1 on hold one
      character per column. */
  lemma {:induction false} RowCellsLength(text: int -> string, ch: int -> char, r: int, c: nat)
    requires 1 <= c <= W
    requires forall at :: text(at) == [ch(at)]
    decreases W - c
    ensures |RowCells(text, r, c)| == W - c
  {
    if c < W {
      RowCellsLength(text, ch, r, c + 1);
    }
  }

  /** ... and in order: index i holds the character of column c + i. */
  lemma {:induction false} RowCellsAt(text: int -> string, ch: int -> char, r: int, c: nat, i: nat)
    requires 1 <= c <= W && i < W - c
    requires forall at :: text(at) == [ch(at)]
    decreases W - c
    ensures |RowCells(text, r, c)| == W - c
    ensures RowCells(text, r, c)[i] == ch(r * W + c + i)
  {
    RowCellsLength(text, ch, r, c);
    var rest := RowCells(text, r, c + 1);
    assert RowCells(text, r, c) == [ch(r * W + c)] + rest;
    if i > 0 {
      RowCellsAt(text, ch, r, c + 1, i - 1);
      assert r * W + (c + 1) + (i - 1) == r * W + c + i;
    }
  }

  /** The character each cell of g shows. */
  function Shown(g: Game): int -> char {
    at => CellChar(g.hints, g.forced, at)
  }

  lemma PrinterChars(g: Game)
    requires SingleDigitSizes(g.hints)
    ensures forall at :: Printer(g.hints, g.forced)(at) == [Shown(g)(at)]
  {
    forall at
      ensures Printer(g.hints, g.forced)(at) == [Shown(g)(at)]
    {
      CellTextChar(g.hints, g.forced, at);
    }
  }

  /** The board cell printed at index k of row r: the border column is not printed. */
  function CellAt(r: int, k: int): int {
    r * W + 1 + k
  }

  /** With single-digit lengths the row string of row r has one character per non-border
      column: column k >= 1 of the board shows at index k - 1. */
  lemma RowStringChars(g: Game, r: nat)
    requires SingleDigitSizes(g.hints)
    ensures |RowString(g, r)| == W - 1
    ensures forall k :: 0 <= k < W - 1 ==> RowString(g, r)[k] == Shown(g)(CellAt(r, k))
  {
    PrinterChars(g);
    RowCellsFromOne(Printer(g.hints, g.forced), Shown(g), r);
    RowStringFromOne(g, r);
  }

  /** Column 0 is the border and prints nothing. */
  lemma RowStringFromOne(g: Game, r: nat)
    ensures RowString(g, r) == RowCells(Printer(g.hints, g.forced), r, 1)
  {
    assert RowCells(Printer(g.hints, g.forced), r, 0) == "" + RowCells(Printer(g.hints, g.forced), r, 1);
  }

  /** The row cells from column 1 on, one character per column in order. */
  lemma RowCellsFromOne(text: int -> string, ch: int -> char, r: int)
    requires forall at :: text(at) == [ch(at)]
    ensures |RowCells(text, r, 1)| == W - 1
    ensures forall i :: 0 <= i < W - 1 ==> RowCells(text, r, 1)[i] == ch(CellAt(r, i))
  {
    RowCellsLength(text, ch, r, 1);
    forall i | 0 <= i < W - 1
      ensures RowCells(text, r, 1)[i] == ch(CellAt(r, i))
    {
      RowCellsAt(text, ch, r, 1, i);
      assert CellAt(r, i) == r * W + 1 + i;
    }
  }

}

=== FILE: state.dfy ===
/** The state of one Game instance of the propagation engine (src/main.cc:409-416) and the
    per-orientation tests that the rules pass to do_squares. */
module GameState {
  import opened Geometry
  import opened Masks

  /** Width of valid_orientation_[piece], a uint16: orientation o is bit o. */
  const OrientationBits: nat := 16

  /** hints_ (anchor and length per piece), valid_orientation_, orig_possible_, possible_,
      fixed_, forced_ and the Options flag dep_. Cell arrays are indexed by cell,
      piece arrays by piece. */
  datatype Game = Game(
    hints: seq<Hint>,
    validOrientation: seq<set<nat>>,
    origPossible: seq<Mask>,
    possible: seq<Mask>,
    fixed: seq<Mask>,
    forced: seq<bool>,
    dep: bool)

  /** The fixed array sizes of the C++ class. */
  predicate Shaped(g: Game) {
    && |g.hints| == N
    && |g.validOrientation| == N
    && |g.origPossible| == Area
    && |g.possible| == Area
    && |g.fixed| == Area
    && |g.forced| == Area
  }

  /** Anchors index the cell arrays (reset_hints writes fixed_[hint.first]). */
  predicate AnchorsInRange(hints: seq<Hint>) {
    forall i :: 0 <= i < |hints| ==> 0 <= hints[i].at < Area
  }

  /** fixed_[c] for a cell the caller has already bounds-checked. */
  function FixedAt(g: Game, c: int): Mask {
    if 0 <= c < |g.fixed| then g.fixed[c] else {}
  }

  function PossibleAt(g: Game, c: int): Mask {
    if 0 <= c < |g.possible| then g.possible[c] else {}
  }

  /** The orientation indices the rules loop over: o < size*2. */
  predicate InRange(h: Hint, o: nat) {
    o < 2 * h.size
  }

  /** Orientation o of piece p is still allowed. */
  predicate Valid(g: Game, p: nat, o: nat)
    requires p < |g.hints| && p < |g.validOrientation|
  {
    InRange(g.hints[p], o) && o in g.validOrientation[p]
  }

  /** The do_squares test of update_possible and find_dependent: every square on the board
      and either unfixed or fixed to p. */
  predicate Compatible(g: Game, p: nat, o: nat)
    requires p < |g.hints| && p < MaskBits
  {
    var h := g.hints[p];
    DoSquares(h.size, RunStart(h, o), Step(o), c => FixedAt(g, c) == {} || FixedAt(g, c) == PieceMask(p))
  }

  /** The do_squares test of update_fixed: every square on the board and p still possible there. */
  predicate Coverable(g: Game, p: nat, o: nat)
    requires p < |g.hints|
  {
    var h := g.hints[p];
    DoSquares(h.size, RunStart(h, o), Step(o), c => p in PossibleAt(g, c))
  }

  /** Cell-wise meaning of Compatible. */
  lemma CompatibleMeans(g: Game, p: nat, o: nat)
    requires p < |g.hints| && p < MaskBits
    ensures Compatible(g, p, o) <==>
      forall i :: 0 <= i < g.hints[p].size ==>
        var c := Square(RunStart(g.hints[p], o), Step(o), i);
        OnBoard(c) && (FixedAt(g, c) == {} || FixedAt(g, c) == {p})
  {
  }

  /** A fixed_ entry is 0 or the mask of a single piece. */
  predicate PieceOrEmpty(m: Mask) {
    m == {} || (|m| == 1 && forall q :: q in m ==> q < N)
  }

  predicate FixedArePieces(g: Game)
    requires Shaped(g)
  {
    forall c :: 0 <= c < Area ==> PieceOrEmpty(g.fixed[c])
  }

  /** Cell c was unfixed in g and is fixed in g'. */
  predicate NewlyFixed(g: Game, g': Game, c: int)
    requires Shaped(g) && Shaped(g') && 0 <= c < Area
  {
    g.fixed[c] == {} && g'.fixed[c] != {}
  }

  /** fixed_ only grows, valid_orientation_ only shrinks, forced_ only grows, and the
      hints stay put: the monotonicity of one solve attempt. */
  predicate Progress(g: Game, g': Game)
    requires Shaped(g) && Shaped(g')
  {
    && g'.hints == g.hints
    && (forall c :: 0 <= c < Area && g.fixed[c] != {} ==> g'.fixed[c] == g.fixed[c])
    && (forall p :: 0 <= p < N ==> g'.validOrientation[p] <= g.validOrientation[p])
    && (forall c :: 0 <= c < Area && g.forced[c] ==> g'.forced[c])
  }

  lemma ProgressTransitive(g1: Game, g2: Game, g3: Game)
    requires Shaped(g1) && Shaped(g2) && Shaped(g3)
    requires Progress(g1, g2) && Progress(g2, g3)
    ensures Progress(g1, g3)
  {
  }
}

=== FILE: status.dfy ===
/** impossible, solved and force_one_square (src/main.cc:155-201): the verdicts of one
    solve attempt and the move that unsticks the generator when no rule applies. */
module Status {
  import opened Geometry
  import opened Masks
  import opened GameState

  /** The pieces loop of impossible(), from piece p on. */
  function ImpossibleFrom(g: Game, p: nat): (r: bool)
    requires Shaped(g) && p <= N
    decreases N - p
    ensures r <==> exists q :: p <= q < N && g.validOrientation[q] == {}
  {
    if p == N then false
    else if g.validOrientation[p] == {} then true
    else ImpossibleFrom(g, p + 1)
  }

  /** impossible(): some piece has no orientation left. */
  function Impossible(g: Game): (r: bool)
    requires Shaped(g)
    ensures r <==> exists q :: 0 <= q < N && g.validOrientation[q] == {}
  {
    ImpossibleFrom(g, 0)
  }

  /** The pieces loop of solved(), from piece p on: orientation_count is the popcount of
      valid_orientation_[piece]. */
  function SolvedFrom(g: Game, p: nat): (r: bool)
    requires Shaped(g) && p <= N
    decreases N - p
    ensures r <==> forall q :: p <= q < N ==> |g.validOrientation[q]| == 1
  {
    if p == N then true
    else if |g.validOrientation[p]| != 1 then false
    else SolvedFrom(g, p + 1)
  }

  /** solved(): every piece has exactly one orientation left. */
  function Solved(g: Game): (r: bool)
    requires Shaped(g)
    ensures r <==> forall q :: 0 <= q < N ==> |g.validOrientation[q]| == 1
  {
    SolvedFrom(g, 0)
  }

  /** A solved game pins each piece to a single orientation, so it is not impossible. */
  lemma SolvedNotImpossible(g: Game)
    requires Shaped(g) && Solved(g)
    ensures !Impossible(g)
    ensures forall q :: 0 <= q < N ==> exists o :: g.validOrientation[q] == {o}
  {
    forall q | 0 <= q < N
      ensures exists o :: g.validOrientation[q] == {o}
    {
      var s := g.validOrientation[q];
      assert |s| == 1;
      var o :| o in s;
      assert |s - {o}| == 0;
      assert s == {o};
    }
  }

  /** A cell force_one_square may pick: unfixed, not yet forced, some candidate left. */
  predicate Candidate(g: Game, c: int)
    requires Shaped(g) && 0 <= c < Area
  {
    g.fixed[c] == {} && !g.forced[c] && g.possible[c] != {}
  }

  /** orig_possible_count(at) - possible_count(at): how many candidates the cell lost. */
  function Score(g: Game, c: int): int
    requires Shaped(g) && 0 <= c < Area
  {
    |g.origPossible[c]| - |g.possible[c]|
  }

  /** r is g with one candidate cell of maximal score, at least -1, forced: what
      force_one_square does when it returns true. */
  predicate ForcedBest(g: Game, r: Game)
    requires Shaped(g)
  {
    exists c :: 0 <= c < Area && Candidate(g, c) && -1 <= Score(g, c)
      && (forall d :: 0 <= d < Area && Candidate(g, d) ==> Score(g, d) <= Score(g, c))
      && r == g.(forced := g.forced[c := true])
  }

  /** A forcing step forces one cell that was not forced and leaves the fixed cells alone. */
  lemma ForcedBestForcesNew(g: Game, r: Game)
    requires Shaped(g) && ForcedBest(g, r)
    ensures r.fixed == g.fixed && r.possible == g.possible
    ensures exists c :: 0 <= c < Area && !g.forced[c] && r.forced[c]
  {
    var c :| 0 <= c < Area && Candidate(g, c) && -1 <= Score(g, c)
      && (forall d :: 0 <= d < Area && Candidate(g, d) ==> Score(g, d) <= Score(g, c))
      && r == g.(forced := g.forced[c := true]);
    assert !g.forced[c] && r.forced[c];
  }

  /** force_one_square: scan the cells, keeping the best score seen (starting from -1) and
      switching among equal scores by rand(), which this model leaves as an arbitrary
      choice. The reservoir count best_score_count is only read on a tie, which is also
      where the source reads it uninitialised when the first candidates score -1; the
      arbitrary choice covers that read as well. The chosen cell best_at is returned
      alongside the result. */
  method ForceOneSquare(g: Game) returns (r: Game, ok: bool, bestAt: int)
    requires Shaped(g)
    ensures Shaped(r) && Progress(g, r) && r == g.(forced := r.forced)
    ensures !ok ==> r == g && forall c :: 0 <= c < Area && Candidate(g, c) ==> Score(g, c) < 0
    ensures ok ==> 0 <= bestAt < Area && Candidate(g, bestAt) && r == g.(forced := g.forced[bestAt := true])
    ensures ok ==> -1 <= Score(g, bestAt) && forall d :: 0 <= d < Area && Candidate(g, d) ==> Score(g, d) <= Score(g, bestAt)
    ensures (exists c :: 0 <= c < Area && Candidate(g, c) && Score(g, c) >= 0) ==> ok
  {
    bestAt := -1;
    var bestScore := -1;
    var at := 0;
    while at < Area
      invariant 0 <= at <= Area
      invariant -1 <= bestScore
      invariant -1 <= bestAt < at
      invariant bestAt >= 0 ==> Candidate(g, bestAt) && Score(g, bestAt) == bestScore
      invariant bestAt < 0 ==> bestScore == -1
      invariant forall d :: 0 <= d < at && Candidate(g, d) ==> Score(g, d) <= bestScore
      invariant (exists d :: 0 <= d < at && Candidate(g, d) && Score(g, d) >= 0) ==> bestAt >= 0
    {
      if Candidate(g, at) {
        var score := Score(g, at);
        if score > bestScore {
          bestScore := score;
          bestAt := at;
        } else if score == bestScore {
          var take: bool := *;
          if take {
            bestAt := at;
          }
        }
      }
      at := at + 1;
    }
    if bestAt >= 0 {
      r := g.(forced := g.forced[bestAt := true]);
      ok := true;
    } else {
      r := g;
      ok := false;
    }
  }
}

=== FILE: transfer.dfy ===
/** From the generator to the client: the rows print_puzzle writes (src/main.cc:67-90) are
    the level text Grid.load reads (www/stc/game.js:269-292). This module relates what the
    client builds from a printed puzzle back to the generator's hints_ and forced_. */
module Transfer {
  import opened Geometry
  import opened GameState
  import opened Hints
  import opened Decimal
  import opened Render
  import opened Lines
  import opened Grid
  import opened Optional

  /** The level as the client receives it: one string per board row, quotes stripped. */
  function Level(g: Game): (rows: seq<string>)
    ensures |rows| == H
  {
    seq(H, (r: int) requires 0 <= r < H => RowString(g, r))
  }

  /** With single-digit lengths each level row has one character per non-border column,
      column k showing board cell CellAt(r, k). */
  lemma LevelChars(g: Game)
    requires SingleDigitSizes(g.hints)
    ensures forall r :: 0 <= r < H ==> |Level(g)[r]| == W - 1
    ensures forall r, k :: 0 <= r < H && 0 <= k < W - 1 ==> Level(g)[r][k] == Shown(g)(CellAt(r, k))
  {
    forall r | 0 <= r < H
      ensures |Level(g)[r]| == W - 1 && forall k :: 0 <= k < W - 1 ==> Level(g)[r][k] == Shown(g)(CellAt(r, k))
    {
      LevelRowChars(g, r);
    }
  }

  lemma LevelRowChars(g: Game, r: int)
    requires SingleDigitSizes(g.hints) && 0 <= r < H
    ensures |Level(g)[r]| == W - 1
    ensures forall k :: 0 <= k < W - 1 ==> Level(g)[r][k] == Shown(g)(CellAt(r, k))
  {
    var row := Level(g)[r];
    assert row == RowString(g, r);
    RowStringChars(g, r);
  }

  /** What the client reads from one shown character: a hint digit exactly at an anchor
      whose length is 1 to 9, with that length, and a dot exactly at a forced cell
      without a hint. */
  lemma ShownMeans(g: Game, at: int)
    requires SingleDigitSizes(g.hints)
    ensures IsHintChar(Shown(g)(at)) <==> exists j :: 0 <= j < |g.hints| && g.hints[j].at == at && LastAt(g.hints, j) && 1 <= g.hints[j].size
    ensures IsHintChar(Shown(g)(at)) ==> exists j :: 0 <= j < |g.hints| && g.hints[j].at == at && LastAt(g.hints, j) && HintValue(Shown(g)(at)) == g.hints[j].size
    ensures Shown(g)(at) == '.' <==> !IsAnchor(g.hints, at) && 0 <= at < |g.forced| && g.forced[at]
  {
    var h := HintAt(g.hints, at);
    if h.Some? {
      var j :| 0 <= j < |g.hints| && g.hints[j].at == at && LastAt(g.hints, j) && h.value == g.hints[j].size;
      forall j' | 0 <= j' < |g.hints| && g.hints[j'].at == at && LastAt(g.hints, j')
        ensures j' == j
      {
      }
    }
  }

  /** Every Line the client loads from a printed puzzle sits on the cell of a hint, with that
      hint's length as its target. */
  lemma LoadedLines(g: Game)
    requires SingleDigitSizes(g.hints)
    ensures forall i :: 0 <= i < |Load(Level(g)).1| ==>
      var l := Load(Level(g)).1[i];
      0 <= l.r < H && 0 <= l.c < W - 1
      && exists j :: 0 <= j < |g.hints| && g.hints[j].at == CellAt(l.r, l.c) && LastAt(g.hints, j)
           && l == NewLine(g.hints[j].size, l.r, l.c)
  {
    forall i | 0 <= i < |Load(Level(g)).1|
      ensures var l := Load(Level(g)).1[i];
        0 <= l.r < H && 0 <= l.c < W - 1
        && exists j :: 0 <= j < |g.hints| && g.hints[j].at == CellAt(l.r, l.c) && LastAt(g.hints, j)
             && l == NewLine(g.hints[j].size, l.r, l.c)
    {
      LoadedLineOnHint(g, i);
    }
  }

  lemma LoadedLineOnHint(g: Game, i: int)
    requires SingleDigitSizes(g.hints) && 0 <= i < |Load(Level(g)).1|
    ensures var l := Load(Level(g)).1[i];
      0 <= l.r < H && 0 <= l.c < W - 1
      && exists j :: 0 <= j < |g.hints| && g.hints[j].at == CellAt(l.r, l.c) && LastAt(g.hints, j)
           && l == NewLine(g.hints[j].size, l.r, l.c)
  {
    var l := Load(Level(g)).1[i];
    LevelRowChars(g, l.r);
    ShownMeans(g, CellAt(l.r, l.c));
  }

  /** Every hint of length 1 to 9 on a non-border cell gets a Line in the client. */
  lemma HintsGetLines(g: Game)
    requires SingleDigitSizes(g.hints)
    ensures forall j :: 0 <= j < |g.hints| && LastAt(g.hints, j) && OnBoard(g.hints[j].at) && 1 <= g.hints[j].size ==>
      exists i :: 0 <= i < |Load(Level(g)).1| && CellAt(Load(Level(g)).1[i].r, Load(Level(g)).1[i].c) == g.hints[j].at
  {
    forall j | 0 <= j < |g.hints| && LastAt(g.hints, j) && OnBoard(g.hints[j].at) && 1 <= g.hints[j].size
      ensures exists i :: 0 <= i < |Load(Level(g)).1| && CellAt(Load(Level(g)).1[i].r, Load(Level(g)).1[i].c) == g.hints[j].at
    {
      HintGetsLine(g, j);
    }
  }

  lemma HintGetsLine(g: Game, j: int)
    requires SingleDigitSizes(g.hints)
    requires 0 <= j < |g.hints| && LastAt(g.hints, j) && OnBoard(g.hints[j].at) && 1 <= g.hints[j].size
    ensures exists i :: 0 <= i < |Load(Level(g)).1| && CellAt(Load(Level(g)).1[i].r, Load(Level(g)).1[i].c) == g.hints[j].at
  {
    var rows := Level(g);
    var ls := Load(rows).1;
    var at := g.hints[j].at;
    var r, k := Row(at), Col(at) - 1;
    assert at == CellAt(r, k);
    LevelRowChars(g, r);
    ShownMeans(g, at);
    assert IsHintChar(rows[r][k]);
    var i :| 0 <= i < |ls| && ls[i].r == r && ls[i].c == k;
  }

  /** A printed puzzle loads without error, as a board of W - 1 columns and H rows. */
  lemma LoadedSize(g: Game)
    requires SingleDigitSizes(g.hints)
    ensures LoadSize(Level(g)) == Some((W - 1, H))
  {
    LevelRowChars(g, 0);
  }

  /** The dots of a printed puzzle, which check() demands be covered, are exactly the forced
      cells that carry no hint. */
  lemma LoadedDots(g: Game)
    requires SingleDigitSizes(g.hints) && |g.forced| == Area
    ensures forall r :: 0 <= r < H ==> |Load(Level(g)).0[r]| == W - 1
    ensures forall r, k :: 0 <= r < H && 0 <= k < |Load(Level(g)).0[r]| ==>
      (Load(Level(g)).0[r][k] == '.' <==> !IsAnchor(g.hints, CellAt(r, k)) && g.forced[CellAt(r, k)])
  {
    var rows := Level(g);
    LevelChars(g);
    forall r, k | 0 <= r < H && 0 <= k < W - 1
      ensures rows[r][k] == '.' <==> !IsAnchor(g.hints, CellAt(r, k)) && g.forced[CellAt(r, k)]
    {
      ShownMeans(g, CellAt(r, k));
    }
  }

  /** The level rows from row r on, written out as print_puzzle lays them: each quoted and
      followed by a comma and a newline, so the output pastes into a JavaScript array. */
  function Quoted(rows: seq<string>, r: nat): string
    decreases |rows| - r
  {
    if r >= |rows| then "" else "\"" + rows[r] + "\",\n" + Quoted(rows, r + 1)
  }

  /** print_puzzle's output is exactly the quoted level rows. */
  lemma PrintPuzzleQuotesLevel(g: Game)
    ensures PrintPuzzle(g) == Quoted(Level(g), 0)
  {
    RowsFromQuoted(g, 0);
  }

  lemma {:induction false} RowsFromQuoted(g: Game, r: nat)
    requires r <= H
    decreases H - r
    ensures RowsFrom(g.hints, g.forced, r) == Quoted(Level(g), r)
  {
    if r < H {
      RowsFromQuoted(g, r + 1);
      assert Level(g)[r] == RowString(g, r);
    }
  }
}
